=== FILE: README.md ===
# Rich-text formatting engine of the MVI notes app, in Dafny

This project models the formatting core of an Android note editor written in
Kotlin with Jetpack Compose, and proves properties of the model.

- **Style catalog** (`catalog.dfy`, module `Catalog`). The seven formatting actions, the span style each
  one applies, and the attribute-free default style. A style is a record of six optional attributes
  (colour, font size, font weight, font style, background, text decoration) whose values are opaque tags.
- **Action sets** (`action_sets.dfy`, module `ActionSets`). Kotlin's default `Set` keeps insertion order,
  and the editor iterates it when it materialises spans. A set of actions is therefore a sequence without
  repetitions. `Minus` and `Plus` are Kotlin's `set - element` and `set + element`.
- **Span algebra and the keystroke pipeline** (`text_editor.dfy`, module `TextEditor`). This covers
  recovering actions from styles, clamping ranges to a new text length, appending the selection span,
  materialising spans into style ranges, and `onValueChange`, which composes the three.
- **Codec** (`converter.dfy`, module `Converter`). The stored record `{text, spans: [{start, end, style: {tag}}]}`
  and the two conversions between it and an annotated string.
- **Toolbar toggle** (`toolbar.dfy`, module `Toolbar`). The rule that updates the active format set when
  a toolbar button is pressed.
- **View models** (`notes.dfy`, `note_detail.dfy`, `notes_list.dfy`). The note record, intents and events.
  Each synchronous handler of the two view models is a function from a state and an input to a step: the
  new state, the repository work it starts (a `Command`, carrying the note it writes), and the events it
  sends, in order. The asynchronous halves (a loaded note arriving, a delete completing) are separate
  functions.

Properties proved include the following:
- The catalog is injective, and the default style is uncataloged.
- Clamping keeps exactly the surviving ranges, in order, with their bounds cut to the new length.
- Appending the selection span never removes or changes an existing span.
- Materialising valid spans and then clamping again against the same text gives back one single-action
  span per (span, action) pair. So the next keystroke recovers the spans one keystroke reports, split into
  one span per action and with action-free markers dropped, provided the next text is at least as long.
  A shorter next text clamps them further.
- The codec round-trips in both directions, up to an explicit normalisation.
- Clamping is stable: when every style is cataloged, materialising the clamped spans and clamping again
  returns the same spans, whatever offsets the previous ranges had.
- A keystroke with a non-empty selection appends, after the clamped previous ranges, one range per active
  action in the set's order, each over exactly the selection. With no active action it appends nothing.
- Heading and SubHeading are never both active, and removing an action keeps the others in order.
- The reducers change only the fields they name, and each intent is routed to its own handler.

Some behaviour is easy to misread. The model keeps it exactly as the Kotlin code has it:
- Within one span, styles are applied in the set's insertion order, not in a fixed enumeration order.
- Loading a stored record has no error path. A stored range whose style is null, or whose tag is null or
  unknown, loads as the default style.
- A range with an uncataloged style, the default style included, becomes a span with no action once
  clamped. It then vanishes at the next materialisation (`ApplyThenAdjust`, `ApplyIgnoresMarkers`).
- Clamping only cuts ranges to the new length. It does not shift offsets after an edit in the middle of
  the text.
- The detail screen sends its success snackbar and then its exit event without waiting for the repository
  write to finish. The list screen's delete snackbar is sent only after its delete completes.
- The detail screen's delete removes the note on screen and ignores the note carried by the intent.

## Model

| member | source | states |
|---|---|---|
| Catalog.AllActionsEnumerated | app/src/main/java/com/ravikantsharma/mvinotesapp/composetexteditor/editor/FormattingAction.kt:11-19 | there are exactly seven actions, each listed once in declaration order |
| Catalog.StyleFor | app/src/main/java/com/ravikantsharma/mvinotesapp/composetexteditor/editor/FormattingAction.kt:21-27 | no action's style is the default style |
| Catalog.StyleSetsItsAttribute | app/src/main/java/com/ravikantsharma/mvinotesapp/composetexteditor/editor/FormattingAction.kt:21-27 | each action's style sets exactly one attribute: font size for the two heading kinds, decoration for Underline and Strikethrough, and weight, font style and background for Bold, Italics and Highlight |
| Catalog.StyleForInjective | app/src/main/java/com/ravikantsharma/mvinotesapp/composetexteditor/editor/FormattingAction.kt:21-27 | two actions have equal styles iff they are the same action |
| Catalog.DefaultStyleUncataloged | app/src/main/java/com/ravikantsharma/mvinotesapp/composetexteditor/editor/FormattingAction.kt:21-28 | the default style sets no attribute and is no action's style |
| Catalog.SharedAttributes | app/src/main/java/com/ravikantsharma/mvinotesapp/composetexteditor/editor/FormattingAction.kt:22-25 | Heading and SubHeading set only the font size (24 vs 20); Underline and Strikethrough set only the decoration, with different values; no other action sets either attribute |
| Catalog.ExclusiveAttributes | app/src/main/java/com/ravikantsharma/mvinotesapp/composetexteditor/editor/FormattingAction.kt:21-27 | background, font style and font weight are each set by exactly one action (Highlight, Italics, Bold); no action sets the text colour |
| Catalog.NameInjective | app/src/main/java/com/ravikantsharma/mvinotesapp/composetexteditor/editor/FormattingAction.kt:11-19 | two actions have equal enum names iff they are the same action |
| Catalog.Name | app/src/main/java/com/ravikantsharma/mvinotesapp/composetexteditor/editor/FormattingAction.kt:11-19 | the enum constant name of each action, the tag the codec stores and matches; NameInjective states that distinct actions get distinct names |
| Catalog.ActionFor | app/src/main/java/com/ravikantsharma/mvinotesapp/composetexteditor/editor/TextEditor.kt:170-182 | the equality lookup returns an action whose style equals the given style, and returns none iff the style is uncataloged |
| ActionSets.Minus | app/src/main/java/com/ravikantsharma/mvinotesapp/ui/screens/NoteDetailScreen.kt:76-79 | removing an action leaves exactly the other members, and removing an absent action changes nothing |
| ActionSets.MinusKeepsOrder | app/src/main/java/com/ravikantsharma/mvinotesapp/ui/screens/NoteDetailScreen.kt:76-79 | removing a present action cuts out exactly its position, so the others keep their order |
| ActionSets.Plus | app/src/main/java/com/ravikantsharma/mvinotesapp/ui/screens/NoteDetailScreen.kt:79-81 | adding an action gives the old members plus it; the old set is a prefix of the result, and an absent action goes last |
| TextEditor.ExtractFormatFromSpanStyle | app/src/main/java/com/ravikantsharma/mvinotesapp/composetexteditor/editor/TextEditor.kt:170-182 | the result is {a} iff the style is action a's style, and empty iff the style is uncataloged; it never holds two actions |
| TextEditor.ExtractBySevenChecks | app/src/main/java/com/ravikantsharma/mvinotesapp/composetexteditor/editor/TextEditor.kt:170-182 | the source's seven independent equality checks, each adding its action to an initially empty set, produce exactly the set the lookup returns |
| TextEditor.CoerceAtMost | app/src/main/java/com/ravikantsharma/mvinotesapp/composetexteditor/editor/TextEditor.kt:155-156 | the result is at most both the value and the bound, and is one of the two |
| TextEditor.AdjustRanges | app/src/main/java/com/ravikantsharma/mvinotesapp/composetexteditor/editor/TextEditor.kt:152-167 | the output is no longer than the input; every output span is non-empty, ends within the new length and has at most one action; it starts at 0 or later when every input range does |
| TextEditor.AdjustSpanForNewText | app/src/main/java/com/ravikantsharma/mvinotesapp/composetexteditor/editor/TextEditor.kt:148-168 | the same bounds as AdjustRanges, stated for the previous annotated string against the new text |
| TextEditor.AdjustSelectsSurvivorsInOrder | app/src/main/java/com/ravikantsharma/mvinotesapp/composetexteditor/editor/TextEditor.kt:154-167 | the output is exactly the clamped images of the ranges that stay non-empty after clamping, in input order; every such range appears |
| TextEditor.ClampFittingAndBeyond | app/src/main/java/com/ravikantsharma/mvinotesapp/composetexteditor/editor/TextEditor.kt:155-166 | a non-empty range ending within the new length keeps its bounds; a range starting at or past the new length is dropped |
| TextEditor.AdjustKeepsFittingRanges | app/src/main/java/com/ravikantsharma/mvinotesapp/composetexteditor/editor/TextEditor.kt:155-166 | when every range fits the new text, nothing is dropped and every bound is kept |
| TextEditor.AdjustDropsRangesBeyond | app/src/main/java/com/ravikantsharma/mvinotesapp/composetexteditor/editor/TextEditor.kt:155-166 | when every range starts at or past the new length, the result is empty |
| TextEditor.AdjustAppend | app/src/main/java/com/ravikantsharma/mvinotesapp/composetexteditor/editor/TextEditor.kt:154-167 | clamping a concatenation gives the concatenation of the clamped parts |
| TextEditor.AddActiveFormattingSpan | app/src/main/java/com/ravikantsharma/mvinotesapp/composetexteditor/editor/TextEditor.kt:117-140 | the input is a prefix of the output, which has at most one more span; a non-empty selection with active formats appends exactly (start, end, formats); no active format and a start above 0 appends the marker (start-1, start, {}); otherwise nothing is appended |
| TextEditor.AddActiveKeepsSpansWithin | app/src/main/java/com/ravikantsharma/mvinotesapp/composetexteditor/editor/TextEditor.kt:125-139 | for a forward selection inside the text, the appended span, like the existing ones, is non-empty and inside the text |
| TextEditor.StyleRanges | app/src/main/java/com/ravikantsharma/mvinotesapp/composetexteditor/editor/TextEditor.kt:67-111 | one span yields one range per action, in set order, each with that action's style and the span's bounds |
| TextEditor.ApplyFormattingSpans | app/src/main/java/com/ravikantsharma/mvinotesapp/composetexteditor/editor/TextEditor.kt:59-115 | the text is unchanged; there is one range per (span, action) pair; every range's style is cataloged; valid spans give ranges inside the text |
| TextEditor.ApplyPlacesEachAction | app/src/main/java/com/ravikantsharma/mvinotesapp/composetexteditor/editor/TextEditor.kt:59-115 | the range for the j-th action of the i-th span sits at position FormatCount(spans[..i]) + j and carries that action's style over that span's bounds; with the count this fixes every range |
| TextEditor.ApplyAppend | app/src/main/java/com/ravikantsharma/mvinotesapp/composetexteditor/editor/TextEditor.kt:66-112 | materialising a concatenation of span lists gives the concatenation of the materialised lists |
| TextEditor.ApplyIgnoresMarkers | app/src/main/java/com/ravikantsharma/mvinotesapp/composetexteditor/editor/TextEditor.kt:66-112 | spans without actions produce no range at all |
| TextEditor.ApplyThenAdjust | app/src/main/java/com/ravikantsharma/mvinotesapp/composetexteditor/editor/TextEditor.kt:59-168 | for spans that are non-empty and end inside the text, materialising and then clamping against the same text gives, in order, one single-action span per (span, action) pair with that span's bounds |
| TextEditor.ApplyKeepsSpanBounds | app/src/main/java/com/ravikantsharma/mvinotesapp/composetexteditor/editor/TextEditor.kt:59-115 | spans that are non-empty and end inside the text materialise to ranges that are non-empty and end inside the text |
| TextEditor.AdjustCatalogedRanges | app/src/main/java/com/ravikantsharma/mvinotesapp/composetexteditor/editor/TextEditor.kt:154-167 | ranges whose styles are all cataloged clamp to spans that each carry exactly one action |
| TextEditor.ReadjustIsStable | app/src/main/java/com/ravikantsharma/mvinotesapp/composetexteditor/editor/TextEditor.kt:59-168 | when every style is cataloged, materialising the clamped spans over the new text and clamping again returns the same spans |
| TextEditor.OnValueChange | app/src/main/java/com/ravikantsharma/mvinotesapp/composetexteditor/editor/TextEditor.kt:33-54 | the new text is kept; the reported spans are the previous string clamped to the new text with the selection's span added under the active formats, and the reported string is those spans materialised over the new text; the clamped previous spans are a prefix of the reported spans, which have at most one more span than the previous string had ranges; with a forward selection inside the text, every span and range is inside the text |
| TextEditor.OnValueChangeFormatsSelection | app/src/main/java/com/ravikantsharma/mvinotesapp/composetexteditor/editor/TextEditor.kt:33-54 | with a non-empty selection, the reported ranges are the clamped previous spans materialised, followed by one range per active action in the set's order over the selection; with no active action, the reported ranges are just the clamped previous spans materialised |
| TextEditor.OnValueChangeStylesSelection | app/src/main/java/com/ravikantsharma/mvinotesapp/composetexteditor/editor/TextEditor.kt:33-54 | with a non-empty selection, the j-th active action's style covers exactly the selection, at position j among the last ranges, one per active action |
| TextEditor.AdjustFittingAtLongerLength | app/src/main/java/com/ravikantsharma/mvinotesapp/composetexteditor/editor/TextEditor.kt:154-167 | ranges that fit a text clamp to the same spans against any longer text |
| TextEditor.OnValueChangeRecoverable | app/src/main/java/com/ravikantsharma/mvinotesapp/composetexteditor/editor/TextEditor.kt:33-54 | whatever offsets the previous ranges had, clamping the reported annotated string against any next text at least as long gives back exactly the reported spans, split per action and without markers |
| TextEditor.TruncationExamples | app/src/main/java/com/ravikantsharma/mvinotesapp/composetexteditor/editor/TextEditor.kt:148-168 | a bold range over "Hello" shrinks to [0, 3) when the text becomes "Hel", and disappears when it becomes empty |
| TextEditor.SelectionExamples | app/src/main/java/com/ravikantsharma/mvinotesapp/composetexteditor/editor/TextEditor.kt:117-140 | a selection [1, 4) with Bold and Italics gives one span and two ranges; a caret at 3 with nothing active gives the marker [2, 3) and no range |
| Converter.TagFor | app/src/main/java/com/ravikantsharma/mvinotesapp/data/db/converter/AnnotatedStringConverter.kt:25-34 | a cataloged style is stored as its action's enum name; every other style is stored as a null tag |
| Converter.StyleForData | app/src/main/java/com/ravikantsharma/mvinotesapp/data/db/converter/AnnotatedStringConverter.kt:46-55 | each action name loads as that action's style; a null style, a null tag or any other name loads as the default style |
| Converter.FromAnnotatedString | app/src/main/java/com/ravikantsharma/mvinotesapp/data/db/converter/AnnotatedStringConverter.kt:19-38 | the text is kept; there is one stored entry per range, in order, with the same bounds, a non-null style and the tag of that range's style |
| Converter.ToAnnotatedString | app/src/main/java/com/ravikantsharma/mvinotesapp/data/db/converter/AnnotatedStringConverter.kt:42-61 | the text is kept; there is one range per stored entry, in order, with the same bounds and the style its tag names, or the default style |
| Converter.DecodeEncode | app/src/main/java/com/ravikantsharma/mvinotesapp/data/db/converter/AnnotatedStringConverter.kt:19-61 | storing then loading gives the same string with every uncataloged style replaced by the default style |
| Converter.DecodeEncodeStorable | app/src/main/java/com/ravikantsharma/mvinotesapp/data/db/converter/AnnotatedStringConverter.kt:19-61 | a string whose styles are all cataloged or default survives storing and loading unchanged |
| Converter.EncodeDecode | app/src/main/java/com/ravikantsharma/mvinotesapp/data/db/converter/AnnotatedStringConverter.kt:25-55 | loading then storing gives the same record with every null style or unknown tag replaced by a null tag |
| Converter.ActionForTag | app/src/main/java/com/ravikantsharma/mvinotesapp/data/db/converter/AnnotatedStringConverter.kt:46-55 | a stored style names an action iff the lookup returns one, and then it is exactly that action's name |
| Converter.NormaliseTagsIdempotent | app/src/main/java/com/ravikantsharma/mvinotesapp/data/db/converter/AnnotatedStringConverter.kt:46-55 | that normalisation is idempotent, and it is the identity on records whose tags are all known names or null |
| Converter.UnknownTagExample | app/src/main/java/com/ravikantsharma/mvinotesapp/data/db/converter/AnnotatedStringConverter.kt:46-55 | a range tagged with an unknown name loads as the default style over the same offsets |
| Toolbar.ToggleFormat | app/src/main/java/com/ravikantsharma/mvinotesapp/ui/screens/NoteDetailScreen.kt:74-84 | the toggled action is present afterwards iff it was absent before; turning an action off removes only it; turning a heading kind on also removes the other heading kind; turning any other action on appends it at the end and keeps the rest in order; an action turned on is always last; a set without both heading kinds stays so |
| Toolbar.ToggleOffKeepsOrder | app/src/main/java/com/ravikantsharma/mvinotesapp/ui/screens/NoteDetailScreen.kt:74-84 | turning an active action off removes it from its position and keeps every other action in its order |
| Toolbar.MinusHeadingsFilters | app/src/main/java/com/ravikantsharma/mvinotesapp/ui/screens/NoteDetailScreen.kt:79 | removing Heading and then SubHeading leaves exactly the actions that are not heading kinds, in their order in the set |
| Toolbar.ToggleHeadingOnKeepsOrder | app/src/main/java/com/ravikantsharma/mvinotesapp/ui/screens/NoteDetailScreen.kt:74-84 | turning a heading kind on gives the other actions that are not heading kinds, in their order, followed by the pressed heading kind |
| Toolbar.ToggleTwiceRestores | app/src/main/java/com/ravikantsharma/mvinotesapp/ui/screens/NoteDetailScreen.kt:74-84 | pressing the same non-heading button twice restores the set's contents, and also its order when the action was off |
| Toolbar.HeadingsNeverBothActive | app/src/main/java/com/ravikantsharma/mvinotesapp/ui/screens/NoteDetailScreen.kt:68-84 | from the initial empty set, no sequence of presses makes Heading and SubHeading both active |
| NoteDetail.InitialState | app/src/main/java/com/ravikantsharma/mvinotesapp/ui/viewmodel/NoteDetailViewModel.kt:122-130 | the opening state has the delete icon iff a note id was given, no save icon, an untitled, unlocked, password-less note and an empty description |
| NoteDetail.UpdateNoteTitle | app/src/main/java/com/ravikantsharma/mvinotesapp/ui/viewmodel/NoteDetailViewModel.kt:61-67 | only the title changes, to the new one; the save icon is shown and the delete icon is kept |
| NoteDetail.UpdateNoteDesc | app/src/main/java/com/ravikantsharma/mvinotesapp/ui/viewmodel/NoteDetailViewModel.kt:69-74 | only the description changes, to the new one; the save icon is shown and the delete icon is kept |
| NoteDetail.LockNote | app/src/main/java/com/ravikantsharma/mvinotesapp/ui/viewmodel/NoteDetailViewModel.kt:76-81 | the note becomes encrypted under the given password and nothing else changes; the save icon is shown |
| NoteDetail.UnlockNote | app/src/main/java/com/ravikantsharma/mvinotesapp/ui/viewmodel/NoteDetailViewModel.kt:83-88 | the note becomes unencrypted with no password and nothing else changes; the save icon is shown |
| NoteDetail.NoteLoaded | app/src/main/java/com/ravikantsharma/mvinotesapp/ui/viewmodel/NoteDetailViewModel.kt:53-59 | a note delivered by the repository replaces the note on screen and nothing else, the icons included |
| NoteDetail.AddNote | app/src/main/java/com/ravikantsharma/mvinotesapp/ui/viewmodel/NoteDetailViewModel.kt:90-100 | the note on screen is inserted with its creation time from the first clock reading and its modification time from the second, which agree iff the readings do, and its other fields unchanged; the add snackbar and then the exit event are sent; the state is unchanged |
| NoteDetail.SaveNote | app/src/main/java/com/ravikantsharma/mvinotesapp/ui/viewmodel/NoteDetailViewModel.kt:102-111 | the note on screen is updated with only its modification time renewed; the update snackbar and then the exit event are sent; the state is unchanged |
| NoteDetail.DeleteNoteOnScreen | app/src/main/java/com/ravikantsharma/mvinotesapp/ui/viewmodel/NoteDetailViewModel.kt:113-120 | the note on screen is deleted; the delete snackbar and then the exit event are sent; the state is unchanged |
| NoteDetail.HandleIntent | app/src/main/java/com/ravikantsharma/mvinotesapp/ui/viewmodel/NoteDetailViewModel.kt:40-51 | each intent runs its own handler: LoadNote fetches the note iff an id exists, the title, description, lock and unlock intents run their reducers with no command or event, AddOrSaveNote saves iff an id exists, with the first clock reading, and adds otherwise, with both readings, DeleteNote deletes the note on screen, and list-screen intents change nothing; no intent changes the delete icon, the note id or its timestamps; a state change shows the save icon and starts no work; any events end with the exit event |
| NoteDetail.LockThenUnlock | app/src/main/java/com/ravikantsharma/mvinotesapp/ui/viewmodel/NoteDetailViewModel.kt:76-88 | locking then unlocking leaves an unencrypted, password-less note whose other fields are unchanged |
| NotesList.InitialNotesState | app/src/main/java/com/ravikantsharma/mvinotesapp/ui/viewmodel/NoteViewModel.kt:78-84 | the list screen opens not loading, with no notes, no selected note, no password sheet and no password error |
| NotesList.LoadNotesStarted | app/src/main/java/com/ravikantsharma/mvinotesapp/ui/viewmodel/NoteViewModel.kt:38-39 | loading raises the loading flag and changes nothing else |
| NotesList.NotesCollected | app/src/main/java/com/ravikantsharma/mvinotesapp/ui/viewmodel/NoteViewModel.kt:40-44 | each delivered list replaces the notes and clears the loading flag; nothing else changes |
| NotesList.OnNoteClicked | app/src/main/java/com/ravikantsharma/mvinotesapp/ui/viewmodel/NoteViewModel.kt:54-63 | an encrypted note is selected and the password sheet shown, with no event; an unencrypted note leaves the state unchanged and sends NavigateToDetail with its id |
| NotesList.ValidatePassword | app/src/main/java/com/ravikantsharma/mvinotesapp/ui/viewmodel/NoteViewModel.kt:65-76 | with no selected note nothing happens; a wrong password sets only the error and sends no event; the right one hides only the sheet, keeps any error and sends NavigateToDetail with the selected note's id |
| NotesList.DeleteCompleted | app/src/main/java/com/ravikantsharma/mvinotesapp/ui/viewmodel/NoteViewModel.kt:47-52 | once a delete completes, the delete snackbar is sent and the state is unchanged |
| NotesList.HandleIntent | app/src/main/java/com/ravikantsharma/mvinotesapp/ui/viewmodel/NoteViewModel.kt:28-36 | LoadNotes raises the loading flag and starts collecting; DeleteNote starts deleting the intent's note; a click and a password entry run their handlers; other intents change nothing; no intent changes the notes list, and the only event sent while handling an intent is a navigation |
| NotesList.EncryptedNoteOpensOnlyWithItsPassword | app/src/main/java/com/ravikantsharma/mvinotesapp/ui/viewmodel/NoteViewModel.kt:54-76 | clicking an encrypted note and entering a password navigates to it iff the password is the note's; otherwise the error is set |
| NotesList.LoadNotesSequence | app/src/test/java/com/ravikantsharma/mvinotesapp/ui/viewmodel/NoteViewModelTest.kt:56-81 | from the initial state, a load first shows loading with no notes and no error, then exactly the fetched notes with loading ended |

## Left out

- JSON text: writing and parsing with Gson is a foreign library. The model works on the stored record itself, and the source handles no malformed payload.
- Compose plumbing: the text field widget, its `TextFieldValue` state, the re-sync effect when the description changes from outside, rendering, and the toolbar's icon lookup are user-interface code, not logic.
- Visual values (`Color.Yellow`, `sp` units, `FontWeight.Bold`): only their identity matters, so they are opaque tags.
- Compose's own range checks: `AnnotatedString.Range` rejects a reversed range, but that library is not part of this model. `AddActiveFormattingSpan` appends whatever bounds it is given, as the source does. Validity is proved only for a forward selection inside the text.
- Text length: Kotlin counts UTF-16 code units, and the model counts the characters of a Dafny string.
- Offsets: they are unbounded integers. The only arithmetic on them is `selectionStart - 1` with `selectionStart > 0`, which cannot wrap in 32 bits.
- Events: the global event channel is concurrency plumbing. The events a handler sends are returned in order. The 100 ms delay before the exit event is not modelled, only its place after the snackbar.
- Asynchronous work: loading, adding, saving and deleting notes run on coroutines against Room. Each view model returns a `Command` naming the work it starts and the note it writes. What the repository does with it is not modelled. What comes back is modelled as separate functions: `NoteLoaded`, `NotesCollected` and `DeleteCompleted`.
- Clocks: each call of `OffsetDateTime.now()` becomes a parameter. Adding a note calls it twice, so two readings are passed in.
- Persistence helpers: Room entities, the DAO, the database, `TimestampConverter` and the SHA-256 and date helpers are persistence or platform code.
- TextEditor.OnValueChange: it proves that spans and ranges stay inside the text only when no previous range starts below 0 and the selection is a forward selection inside the new text. The source checks neither condition.

=== FILE: action_sets.dfy ===
/**
 Sets of formatting actions as the editor keeps them: Kotlin's default set
 keeps insertion order, and the editor iterates it, so a set is modelled as a
 sequence without repetitions. Removing an element keeps the order of the
 rest; adding an absent element puts it last.
 */
module ActionSets {
  import opened Catalog

  predicate Distinct(s: seq<Action>) {
    forall i, j :: 0 <= i < j < |s| ==> s[i] != s[j]
  }

  /** An insertion-ordered set of actions. */
  type ActionSet = s: seq<Action> | Distinct(s)

  /** The unordered contents of a set; two sets are equal in Kotlin when these are. */
  function Members(s: seq<Action>): set<Action> {
    set a | a in s
  }

  /** Putting an absent element in front of a set gives a set. */
  lemma ConsDistinct(x: Action, t: seq<Action>)
    requires Distinct(t) && x !in t
    ensures Distinct([x] + t)
  {
    forall i, j | 0 <= i < j < |[x] + t| ensures ([x] + t)[i] != ([x] + t)[j] {
      if i == 0 {
        assert ([x] + t)[j] == t[j - 1];
      }
    }
  }

  /** The position of `a` in `s`. */
  function IndexOf(s: seq<Action>, a: Action): (k: nat)
    requires a in s
    ensures k < |s| && s[k] == a
    decreases |s|
  {
    if s[0] == a then 0 else IndexOf(s[1..], a) + 1
  }

  /** `s - a`: every element but `a`, in their original order (MinusKeepsOrder). */
  function Minus(s: ActionSet, a: Action): (r: ActionSet)
    ensures forall b :: b in r <==> b in s && b != a
    ensures a !in s ==> r == s
    ensures |r| <= |s|
    decreases |s|
  {
    if s == [] then []
    else
      var rest: ActionSet := s[1..];
      if s[0] == a then rest
      else
        var tail := Minus(rest, a);
        assert s[0] !in tail by {
          assert forall k :: 0 <= k < |rest| ==> rest[k] == s[k + 1];
        }
        ConsDistinct(s[0], tail);
        [s[0]] + tail
  }

  /** Removing a present element cuts exactly that element out and keeps the others in place. */
  lemma {:induction false} MinusKeepsOrder(s: ActionSet, a: Action)
    requires a in s
    ensures Minus(s, a) == s[..IndexOf(s, a)] + s[IndexOf(s, a) + 1..]
    decreases |s|
  {
    var rest: ActionSet := s[1..];
    if s[0] == a {
      assert IndexOf(s, a) == 0;
      assert Minus(s, a) == rest;
      assert s[..0] + s[1..] == rest;
    } else {
      assert a in rest;
      var k := IndexOf(rest, a);
      assert IndexOf(s, a) == k + 1;
      assert Minus(s, a) == [s[0]] + Minus(rest, a);
      MinusKeepsOrder(rest, a);
      CutAfterHead(s, k);
    }
  }

  /** Cutting position k out of the tail and putting the head back cuts position k + 1 out of the whole. */
  lemma CutAfterHead(s: seq<Action>, k: nat)
    requires k + 1 < |s|
    ensures [s[0]] + (s[1..][..k] + s[1..][k + 1..]) == s[..k + 1] + s[k + 2..]
  {
    var rest := s[1..];
    assert s[..k + 1] == [s[0]] + rest[..k];
    assert s[k + 2..] == rest[k + 1..];
  }

  /** `s + a`: the set itself when `a` is present, otherwise `a` appended last. */
  function Plus(s: ActionSet, a: Action): (r: ActionSet)
    ensures forall b :: b in r <==> b in s || b == a
    ensures |s| <= |r| <= |s| + 1 && r[..|s|] == s
  {
    if a in s then s else s + [a]
  }
}

=== FILE: catalog.dfy ===
/**
 The style catalog of the note editor: the closed set of formatting actions,
 the span style each action applies, and the attribute-free default style.

 A span style is a record of optional attributes. The visual values (colours,
 sizes, weights) are opaque tags: only their equality matters, because the
 editor recovers an action from a style by value equality.
 */
module Catalog {
  import opened Nullable

  /** The formatting actions, in declaration order. */
  datatype Action = Heading | SubHeading | Bold | Italics | Underline | Strikethrough | Highlight

  /** Every action, in declaration order. */
  const AllActions: seq<Action> := [Heading, SubHeading, Bold, Italics, Underline, Strikethrough, Highlight]

  /** Opaque colour values; `Yellow` is the only one the catalog uses. */
  datatype Color = Yellow | OtherColor(id: nat)

  /** A font size in scale-independent pixels. */
  datatype TextUnit = Sp(value: int)

  /** A font weight on the usual 1..1000 scale. */
  datatype FontWeight = FontWeight(weight: int)

  datatype FontStyle = Normal | Italic

  /** A text decoration is any combination of underline and line-through. */
  datatype TextDecoration = TextDecoration(underline: bool, lineThrough: bool)

  const BoldWeight := FontWeight(700)
  const UnderlineDecoration := TextDecoration(true, false)
  const LineThroughDecoration := TextDecoration(false, true)

  /** A span style: each attribute is either set or left unspecified. */
  datatype SpanStyle = SpanStyle(
    color: Option<Color>,
    fontSize: Option<TextUnit>,
    fontWeight: Option<FontWeight>,
    fontStyle: Option<FontStyle>,
    background: Option<Color>,
    textDecoration: Option<TextDecoration>)

  /** The attribute categories of a span style. */
  datatype Attribute = ColorAttr | FontSizeAttr | FontWeightAttr | FontStyleAttr | BackgroundAttr | DecorationAttr

  /** The attributes a style sets. */
  function Attributes(s: SpanStyle): set<Attribute> {
    (if s.color.Some? then {ColorAttr} else {})
    + (if s.fontSize.Some? then {FontSizeAttr} else {})
    + (if s.fontWeight.Some? then {FontWeightAttr} else {})
    + (if s.fontStyle.Some? then {FontStyleAttr} else {})
    + (if s.background.Some? then {BackgroundAttr} else {})
    + (if s.textDecoration.Some? then {DecorationAttr} else {})
  }

  const DefaultStyle := SpanStyle(None, None, None, None, None, None)
  const HighlightStyle := DefaultStyle.(background := Some(Yellow))
  const HeadingStyle := DefaultStyle.(fontSize := Some(Sp(24)))
  const SubtitleStyle := DefaultStyle.(fontSize := Some(Sp(20)))
  const StrikeThroughStyle := DefaultStyle.(textDecoration := Some(LineThroughDecoration))
  const UnderlineStyle := DefaultStyle.(textDecoration := Some(UnderlineDecoration))
  const ItalicsStyle := DefaultStyle.(fontStyle := Some(Italic))
  const BoldStyle := DefaultStyle.(fontWeight := Some(BoldWeight))

  /** The style an action applies; none is the default (StyleSetsItsAttribute says which attribute each sets). */
  function StyleFor(a: Action): (s: SpanStyle)
    ensures s != DefaultStyle
  {
    match a
    case Heading => HeadingStyle
    case SubHeading => SubtitleStyle
    case Bold => BoldStyle
    case Italics => ItalicsStyle
    case Underline => UnderlineStyle
    case Strikethrough => StrikeThroughStyle
    case Highlight => HighlightStyle
  }

  /** The one attribute an action's style sets. */
  function AttributeOf(a: Action): Attribute {
    match a
    case Heading | SubHeading => FontSizeAttr
    case Bold => FontWeightAttr
    case Italics => FontStyleAttr
    case Underline | Strikethrough => DecorationAttr
    case Highlight => BackgroundAttr
  }

  /** Each action's style sets exactly one attribute, its own. */
  lemma StyleSetsItsAttribute(a: Action)
    ensures Attributes(StyleFor(a)) == {AttributeOf(a)}
    ensures |Attributes(StyleFor(a))| == 1
  {
    var s := StyleFor(a);
    forall x: Attribute ensures x in Attributes(s) <==> x == AttributeOf(a) {
    }
  }

  /** A style is cataloged when some action applies exactly it. */
  predicate IsCataloged(s: SpanStyle) {
    exists a: Action :: StyleFor(a) == s
  }

  /** The action whose style is exactly s, found by equality; none for any other style. */
  function ActionFor(s: SpanStyle): (r: Option<Action>)
    ensures r.Some? ==> StyleFor(r.value) == s
    ensures r.None? <==> !IsCataloged(s)
  {
    if s == HighlightStyle then assert StyleFor(Highlight) == s; Some(Highlight)
    else if s == HeadingStyle then assert StyleFor(Heading) == s; Some(Heading)
    else if s == SubtitleStyle then assert StyleFor(SubHeading) == s; Some(SubHeading)
    else if s == StrikeThroughStyle then assert StyleFor(Strikethrough) == s; Some(Strikethrough)
    else if s == UnderlineStyle then assert StyleFor(Underline) == s; Some(Underline)
    else if s == ItalicsStyle then assert StyleFor(Italics) == s; Some(Italics)
    else if s == BoldStyle then assert StyleFor(Bold) == s; Some(Bold)
    else NoMatchUncataloged(s); None
  }

  /** A style equal to none of the seven cataloged styles is uncataloged. */
  lemma NoMatchUncataloged(s: SpanStyle)
    requires s != HighlightStyle && s != HeadingStyle && s != SubtitleStyle && s != StrikeThroughStyle
    requires s != UnderlineStyle && s != ItalicsStyle && s != BoldStyle
    ensures !IsCataloged(s)
  {
    forall a: Action ensures StyleFor(a) != s {
      match a
      case Heading => assert StyleFor(a) == HeadingStyle;
      case SubHeading => assert StyleFor(a) == SubtitleStyle;
      case Bold => assert StyleFor(a) == BoldStyle;
      case Italics => assert StyleFor(a) == ItalicsStyle;
      case Underline => assert StyleFor(a) == UnderlineStyle;
      case Strikethrough => assert StyleFor(a) == StrikeThroughStyle;
      case Highlight => assert StyleFor(a) == HighlightStyle;
    }
  }

  /** The enum constant name of an action, as stored in a note's description. */
  function Name(a: Action): string {
    match a
    case Heading => "Heading"
    case SubHeading => "SubHeading"
    case Bold => "Bold"
    case Italics => "Italics"
    case Underline => "Underline"
    case Strikethrough => "Strikethrough"
    case Highlight => "Highlight"
  }

  /** AllActions lists every action exactly once, so there are exactly seven. */
  lemma AllActionsEnumerated()
    ensures |AllActions| == 7
    ensures forall a: Action :: a in AllActions
    ensures forall i, j :: 0 <= i < j < |AllActions| ==> AllActions[i] != AllActions[j]
  {
    forall a: Action ensures a in AllActions {
      match a
      case Heading => assert AllActions[0] == a;
      case SubHeading => assert AllActions[1] == a;
      case Bold => assert AllActions[2] == a;
      case Italics => assert AllActions[3] == a;
      case Underline => assert AllActions[4] == a;
      case Strikethrough => assert AllActions[5] == a;
      case Highlight => assert AllActions[6] == a;
    }
  }

  /** The catalog is injective: distinct actions apply distinct styles. */
  lemma StyleForInjective(a: Action, b: Action)
    ensures StyleFor(a) == StyleFor(b) <==> a == b
  {
  }

  /** The default style sets nothing and is not cataloged. */
  lemma DefaultStyleUncataloged()
    ensures Attributes(DefaultStyle) == {}
    ensures !IsCataloged(DefaultStyle)
  {
  }

  /**
   Heading and SubHeading both set only the font size (24 against 20);
   Underline and Strikethrough both set only the text decoration, with
   different values; no other action touches either attribute.
   */
  lemma SharedAttributes(a: Action)
    ensures Attributes(StyleFor(Heading)) == Attributes(StyleFor(SubHeading)) == {FontSizeAttr}
    ensures StyleFor(Heading).fontSize == Some(Sp(24)) && StyleFor(SubHeading).fontSize == Some(Sp(20))
    ensures Attributes(StyleFor(Underline)) == Attributes(StyleFor(Strikethrough)) == {DecorationAttr}
    ensures StyleFor(Underline).textDecoration != StyleFor(Strikethrough).textDecoration
    ensures FontSizeAttr in Attributes(StyleFor(a)) <==> a == Heading || a == SubHeading
    ensures DecorationAttr in Attributes(StyleFor(a)) <==> a == Underline || a == Strikethrough
  {
    StyleSetsItsAttribute(Heading);
    StyleSetsItsAttribute(SubHeading);
    StyleSetsItsAttribute(Underline);
    StyleSetsItsAttribute(Strikethrough);
    StyleSetsItsAttribute(a);
    assert AttributeOf(a) == FontSizeAttr <==> a == Heading || a == SubHeading;
    assert AttributeOf(a) == DecorationAttr <==> a == Underline || a == Strikethrough;
  }

  /** Highlight, Italics and Bold each own one attribute that no other action sets. */
  lemma ExclusiveAttributes(a: Action)
    ensures BackgroundAttr in Attributes(StyleFor(a)) <==> a == Highlight
    ensures FontStyleAttr in Attributes(StyleFor(a)) <==> a == Italics
    ensures FontWeightAttr in Attributes(StyleFor(a)) <==> a == Bold
    ensures ColorAttr !in Attributes(StyleFor(a))
  {
    StyleSetsItsAttribute(a);
  }

  /** Enum names are pairwise distinct, so a stored tag identifies at most one action. */
  lemma NameInjective(a: Action, b: Action)
    ensures Name(a) == Name(b) <==> a == b
  {
  }
}

=== FILE: converter.dfy ===
/**
 The storage codec of a note's description. An annotated string is stored as
 a record of its text and one entry per style range, where the style is kept
 only as a tag: the name of the action whose style it is, or null. The JSON
 text the record is written as is not part of this model.
 */
module Converter {
  import opened Nullable
  import opened Catalog
  import opened TextEditor

  /** A stored style: an action name, or null. */
  datatype SpanStyleData = SpanStyleData(tag: Option<string>)

  /** A stored range; the style object itself may be null in a stored payload. */
  datatype AnnotatedStringSpan = AnnotatedStringSpan(start: int, end: int, style: Option<SpanStyleData>)

  /** A stored description. */
  datatype AnnotatedStringData = AnnotatedStringData(text: string, spans: seq<AnnotatedStringSpan>)

  /** The tag stored for a style: its action's name when cataloged, null for anything else. */
  function TagFor(item: SpanStyle): (r: Option<string>)
    ensures forall a :: item == StyleFor(a) ==> r == Some(Name(a))
    ensures r.None? <==> !IsCataloged(item)
  {
    var r := if item == HighlightStyle then Some(Name(Highlight))
    else if item == HeadingStyle then Some(Name(Heading))
    else if item == SubtitleStyle then Some(Name(SubHeading))
    else if item == BoldStyle then Some(Name(Bold))
    else if item == ItalicsStyle then Some(Name(Italics))
    else if item == UnderlineStyle then Some(Name(Underline))
    else if item == StrikeThroughStyle then Some(Name(Strikethrough))
    else None;
    assert r == (if ActionFor(item).Some? then Some(Name(ActionFor(item).value)) else None);
    assert forall a :: item == StyleFor(a) ==> r == Some(Name(a)) by {
      forall a | item == StyleFor(a) ensures r == Some(Name(a)) {
        StyleForInjective(a, ActionFor(item).value);
      }
    }
    r
  }

  /** The style a stored entry stands for: the named action's style, or the default for a null style, a null tag or an unknown name. */
  function StyleForData(style: Option<SpanStyleData>): (r: SpanStyle)
    ensures forall a :: style == Some(SpanStyleData(Some(Name(a)))) ==> r == StyleFor(a)
    ensures !IsKnownTag(style) ==> r == DefaultStyle
  {
    var tag := if style.Some? then style.value.tag else None;
    var r := if tag == Some(Name(Highlight)) then HighlightStyle
    else if tag == Some(Name(Heading)) then HeadingStyle
    else if tag == Some(Name(SubHeading)) then SubtitleStyle
    else if tag == Some(Name(Bold)) then BoldStyle
    else if tag == Some(Name(Italics)) then ItalicsStyle
    else if tag == Some(Name(Underline)) then UnderlineStyle
    else if tag == Some(Name(Strikethrough)) then StrikeThroughStyle
    else DefaultStyle;
    assert r == (if ActionForTag(style).Some? then StyleFor(ActionForTag(style).value) else DefaultStyle);
    assert forall a :: style == Some(SpanStyleData(Some(Name(a)))) ==> r == StyleFor(a) by {
      forall a | style == Some(SpanStyleData(Some(Name(a)))) ensures r == StyleFor(a) {
        NameInjective(a, ActionForTag(style).value);
      }
    }
    r
  }

  /** The action a stored style names, if any. */
  function ActionForTag(style: Option<SpanStyleData>): (r: Option<Action>)
    ensures r.Some? ==> style == Some(SpanStyleData(Some(Name(r.value))))
    ensures r.None? <==> !IsKnownTag(style)
  {
    var tag := if style.Some? then style.value.tag else None;
    if style.Some? && tag == Some(Name(Highlight)) then Some(Highlight)
    else if style.Some? && tag == Some(Name(Heading)) then Some(Heading)
    else if style.Some? && tag == Some(Name(SubHeading)) then Some(SubHeading)
    else if style.Some? && tag == Some(Name(Bold)) then Some(Bold)
    else if style.Some? && tag == Some(Name(Italics)) then Some(Italics)
    else if style.Some? && tag == Some(Name(Underline)) then Some(Underline)
    else if style.Some? && tag == Some(Name(Strikethrough)) then Some(Strikethrough)
    else None
  }

  /** The stored style names one of the actions. */
  predicate IsKnownTag(style: Option<SpanStyleData>) {
    exists a: Action :: style == Some(SpanStyleData(Some(Name(a))))
  }

  /** One stored entry per range, in order, with the same bounds and the range's tag. */
  function FromAnnotatedString(value: AnnotatedString): (r: AnnotatedStringData)
    ensures r.text == value.text
    ensures |r.spans| == |value.spanStyles|
    ensures forall i :: 0 <= i < |r.spans| ==>
              && r.spans[i].start == value.spanStyles[i].start
              && r.spans[i].end == value.spanStyles[i].end
              && r.spans[i].style.Some?
    ensures forall i, a :: 0 <= i < |r.spans| && value.spanStyles[i].item == StyleFor(a) ==>
              r.spans[i].style == Some(SpanStyleData(Some(Name(a))))
    ensures forall i :: 0 <= i < |r.spans| && !IsCataloged(value.spanStyles[i].item) ==>
              r.spans[i].style == Some(SpanStyleData(None))
  {
    var ranges := value.spanStyles;
    AnnotatedStringData(value.text,
      seq(|ranges|, i requires 0 <= i < |ranges| =>
        AnnotatedStringSpan(ranges[i].start, ranges[i].end, Some(SpanStyleData(TagFor(ranges[i].item))))))
  }

  /** One range per stored entry, in order, with the same bounds and the style its tag names. */
  function ToAnnotatedString(value: AnnotatedStringData): (r: AnnotatedString)
    ensures r.text == value.text
    ensures |r.spanStyles| == |value.spans|
    ensures forall i :: 0 <= i < |r.spanStyles| ==>
              r.spanStyles[i].start == value.spans[i].start && r.spanStyles[i].end == value.spans[i].end
    ensures forall i, a :: 0 <= i < |r.spanStyles| && value.spans[i].style == Some(SpanStyleData(Some(Name(a)))) ==>
              r.spanStyles[i].item == StyleFor(a)
    ensures forall i :: 0 <= i < |r.spanStyles| && !IsKnownTag(value.spans[i].style) ==>
              r.spanStyles[i].item == DefaultStyle
  {
    var spans := value.spans;
    AnnotatedString(value.text,
      seq(|spans|, i requires 0 <= i < |spans| => Range(StyleForData(spans[i].style), spans[i].start, spans[i].end)))
  }

  /** A style survives storage unchanged when it is cataloged or the default. */
  predicate Storable(item: SpanStyle) {
    IsCataloged(item) || item == DefaultStyle
  }

  /** What storage does to a style: cataloged styles are kept, all others become the default. */
  function NormaliseStyle(item: SpanStyle): SpanStyle {
    if IsCataloged(item) then item else DefaultStyle
  }

  /** What storage does to a stored entry: a null style or an unknown tag becomes a null tag. */
  function NormaliseTag(style: Option<SpanStyleData>): Option<SpanStyleData> {
    if IsKnownTag(style) then style else Some(SpanStyleData(None))
  }

  function NormaliseStyles(value: AnnotatedString): AnnotatedString {
    var ranges := value.spanStyles;
    AnnotatedString(value.text,
      seq(|ranges|, i requires 0 <= i < |ranges| => ranges[i].(item := NormaliseStyle(ranges[i].item))))
  }

  function NormaliseTags(value: AnnotatedStringData): AnnotatedStringData {
    var spans := value.spans;
    AnnotatedStringData(value.text,
      seq(|spans|, i requires 0 <= i < |spans| => spans[i].(style := NormaliseTag(spans[i].style))))
  }

  /** Storing and loading keeps text, order and bounds, keeps every cataloged style and turns every other style into the default. */
  lemma DecodeEncode(value: AnnotatedString)
    ensures ToAnnotatedString(FromAnnotatedString(value)) == NormaliseStyles(value)
  {
    var r := ToAnnotatedString(FromAnnotatedString(value));
    var n := NormaliseStyles(value);
    forall i | 0 <= i < |r.spanStyles|
      ensures r.spanStyles[i] == n.spanStyles[i]
    {
    }
  }

  /** An annotated string whose styles are all cataloged or default survives storage exactly. */
  lemma DecodeEncodeStorable(value: AnnotatedString)
    requires forall k :: 0 <= k < |value.spanStyles| ==> Storable(value.spanStyles[k].item)
    ensures ToAnnotatedString(FromAnnotatedString(value)) == value
  {
    DecodeEncode(value);
    assert NormaliseStyles(value).spanStyles == value.spanStyles;
  }

  /** Loading and storing again keeps text, order and bounds, keeps known tags and turns every unknown tag or null style into a null tag. */
  lemma EncodeDecode(value: AnnotatedStringData)
    ensures FromAnnotatedString(ToAnnotatedString(value)) == NormaliseTags(value)
  {
    var r := FromAnnotatedString(ToAnnotatedString(value));
    var n := NormaliseTags(value);
    forall i | 0 <= i < |r.spans|
      ensures r.spans[i] == n.spans[i]
    {
    }
  }

  /** Normalising tags twice is the same as normalising once, and changes nothing on a stored form whose tags are all known or null. */
  lemma NormaliseTagsIdempotent(value: AnnotatedStringData)
    ensures NormaliseTags(NormaliseTags(value)) == NormaliseTags(value)
    ensures (forall i :: 0 <= i < |value.spans| ==> value.spans[i].style == NormaliseTag(value.spans[i].style))
            ==> NormaliseTags(value) == value
  {
  }

  /** A stored Heading range whose tag was altered to an unknown name loads as an unstyled range over the same offsets. */
  lemma UnknownTagExample()
    ensures ToAnnotatedString(AnnotatedStringData("Title", [AnnotatedStringSpan(0, 5, Some(SpanStyleData(Some("Unknown"))))]))
         == AnnotatedString("Title", [Range(DefaultStyle, 0, 5)])
  {
    var style := Some(SpanStyleData(Some("Unknown")));
    assert !IsKnownTag(style) by {
      forall a: Action ensures Name(a) != "Unknown" {
        assert Name(a)[2] != 'k';
      }
    }
    var r := ToAnnotatedString(AnnotatedStringData("Title", [AnnotatedStringSpan(0, 5, style)]));
    assert r.spanStyles[0].item == DefaultStyle;
    assert r.spanStyles[0] == Range(DefaultStyle, 0, 5);
  }
}

=== FILE: note_detail.dfy ===
/**
 The note detail screen's view model: the state of the note being edited and
 the synchronous reducers that update it. Loading, saving, adding and
 deleting run asynchronously against the repository; the model only records
 which of them an intent starts.
 */
module NoteDetail {
  import opened Nullable
  import opened TextEditor
  import N = Notes

  datatype NoteDetailViewState = NoteDetailViewState(note: N.Note, showDeleteIcon: bool, showSaveIcon: bool)

  /**
   The repository work an intent starts, with the note it writes; it runs
   asynchronously and only its request is modelled.
   */
  datatype Command =
    | NoCommand
    | GetNote(noteId: string)
    | InsertNote(note: N.Note)
    | UpdateNote(note: N.Note)
    | DeleteNote(note: N.Note)

  /** The new state, the repository work started and the events sent, in order. */
  datatype Step = Step(state: NoteDetailViewState, command: Command, events: seq<N.AppEvent>)

  /**
   The state a detail screen opens with: an empty untitled, unlocked note, a
   delete icon only for an existing note, and no save icon. The two clock
   readings the Kotlin view model takes are parameters.
   */
  function InitialState(noteId: Option<string>, createdAt: N.Timestamp, modifiedAt: N.Timestamp): (s: NoteDetailViewState)
    ensures s.showDeleteIcon <==> noteId.Some?
    ensures !s.showSaveIcon
    ensures s.note.description.text == [] && s.note.description.spanStyles == []
    ensures s.note.title == [] && !s.note.encrypt && s.note.password.None?
  {
    NoteDetailViewState(
      N.Note(0, "", AnnotatedString("", []), false, None, createdAt, modifiedAt),
      noteId != None,
      false)
  }

  /** A new title: nothing but the title changes, and the save icon appears. */
  function UpdateNoteTitle(s: NoteDetailViewState, title: string): (r: NoteDetailViewState)
    ensures r.note.title == title && r.note.(title := s.note.title) == s.note
    ensures r.showSaveIcon && r.showDeleteIcon == s.showDeleteIcon
  {
    s.(note := s.note.(title := title), showSaveIcon := true)
  }

  /** A new description: nothing but the description changes, and the save icon appears. */
  function UpdateNoteDesc(s: NoteDetailViewState, desc: AnnotatedString): (r: NoteDetailViewState)
    ensures r.note.description == desc && r.note.(description := s.note.description) == s.note
    ensures r.showSaveIcon && r.showDeleteIcon == s.showDeleteIcon
  {
    s.(note := s.note.(description := desc), showSaveIcon := true)
  }

  /** Locking marks the note encrypted under the given password. */
  function LockNote(s: NoteDetailViewState, password: string): (r: NoteDetailViewState)
    ensures r.note.encrypt && r.note.password == Some(password)
    ensures r.note.(encrypt := s.note.encrypt, password := s.note.password) == s.note
    ensures r.showSaveIcon && r.showDeleteIcon == s.showDeleteIcon
  {
    s.(note := s.note.(encrypt := true, password := Some(password)), showSaveIcon := true)
  }

  /** Unlocking marks the note unencrypted and forgets its password. */
  function UnlockNote(s: NoteDetailViewState): (r: NoteDetailViewState)
    ensures !r.note.encrypt && r.note.password.None?
    ensures r.note.(encrypt := s.note.encrypt, password := s.note.password) == s.note
    ensures r.showSaveIcon && r.showDeleteIcon == s.showDeleteIcon
  {
    s.(note := s.note.(encrypt := false, password := None), showSaveIcon := true)
  }

  /** Each note the repository delivers for the id replaces the note on screen and nothing else. */
  function NoteLoaded(s: NoteDetailViewState, note: N.Note): (r: NoteDetailViewState)
    ensures r.note == note && r.(note := s.note) == s
  {
    s.(note := note)
  }

  /**
   Adding a new note: the note goes to the repository stamped with the time
   of creation and modification, the success snackbar is sent, then the
   screen is exited; the screen state does not change. The Kotlin view model
   reads the clock twice, once per timestamp, so the two readings are two
   parameters and the stamps agree only when the readings do.
   */
  function AddNote(s: NoteDetailViewState, firstReading: N.Timestamp, secondReading: N.Timestamp): (r: Step)
    ensures r.state == s && r.command.InsertNote?
    ensures r.command.note.createdAt == firstReading && r.command.note.modifiedAt == secondReading
    ensures r.command.note.createdAt == r.command.note.modifiedAt <==> firstReading == secondReading
    ensures r.command.note.(createdAt := s.note.createdAt, modifiedAt := s.note.modifiedAt) == s.note
    ensures r.events == [N.ShowSnackbar(N.AddNoteSuccess), N.ExitScreen]
  {
    Step(s, InsertNote(s.note.(createdAt := firstReading, modifiedAt := secondReading)),
         [N.ShowSnackbar(N.AddNoteSuccess), N.ExitScreen])
  }

  /**
   Saving an existing note: the note goes to the repository with only its
   modification time renewed, the success snackbar is sent, then the screen
   is exited.
   */
  function SaveNote(s: NoteDetailViewState, now: N.Timestamp): (r: Step)
    ensures r.state == s && r.command.UpdateNote?
    ensures r.command.note.modifiedAt == now && r.command.note.(modifiedAt := s.note.modifiedAt) == s.note
    ensures r.events == [N.ShowSnackbar(N.UpdateNoteSuccess), N.ExitScreen]
  {
    Step(s, UpdateNote(s.note.(modifiedAt := now)), [N.ShowSnackbar(N.UpdateNoteSuccess), N.ExitScreen])
  }

  /** Deleting removes the note on screen, whatever note the intent names, then reports and exits. */
  function DeleteNoteOnScreen(s: NoteDetailViewState): (r: Step)
    ensures r.state == s && r.command == DeleteNote(s.note)
    ensures r.events == [N.ShowSnackbar(N.DeleteNoteSuccess), N.ExitScreen]
  {
    Step(s, DeleteNote(s.note), [N.ShowSnackbar(N.DeleteNoteSuccess), N.ExitScreen])
  }

  /**
   Dispatches an intent to its handler. No intent changes the delete icon or
   the note's identity and timestamps on screen; every state change shows
   the save icon; an intent either changes the state or starts repository
   work, never both; saving goes to an update for an existing note and to an
   insert for a new one, and every write ends with a snackbar and an exit;
   intents meant for the list screen change nothing. The clock readings are
   parameters: a save reads the clock once, an add twice.
   */
  function HandleIntent(noteId: Option<string>, s: NoteDetailViewState, intent: N.NoteIntent,
                        firstReading: N.Timestamp, secondReading: N.Timestamp): (r: Step)
    ensures r.state.showDeleteIcon == s.showDeleteIcon
    ensures r.state.note.id == s.note.id
    ensures r.state.note.createdAt == s.note.createdAt && r.state.note.modifiedAt == s.note.modifiedAt
    ensures r.state != s ==> r.state.showSaveIcon && r.command == NoCommand && r.events == []
    ensures r.events != [] ==> r.events[|r.events| - 1] == N.ExitScreen
    ensures intent.LoadNote? ==>
              r == Step(s, if noteId.Some? then GetNote(noteId.value) else NoCommand, [])
    ensures intent.UpdateNoteTitle? ==> r == Step(UpdateNoteTitle(s, intent.title), NoCommand, [])
    ensures intent.UpdateNoteDescription? ==> r == Step(UpdateNoteDesc(s, intent.description), NoCommand, [])
    ensures intent.LockNote? ==> r == Step(LockNote(s, intent.password), NoCommand, [])
    ensures intent.UnLockNote? ==> r == Step(UnlockNote(s), NoCommand, [])
    ensures intent.AddOrSaveNote? && noteId.Some? ==> r == SaveNote(s, firstReading)
    ensures intent.AddOrSaveNote? && noteId.None? ==> r == AddNote(s, firstReading, secondReading)
    ensures intent.DeleteNote? ==> r == DeleteNoteOnScreen(s)
    ensures intent.LoadNotes? || intent.OpenNoteClicked? || intent.ValidatePassword? ==> r == Step(s, NoCommand, [])
  {
    match intent
    case LoadNote => Step(s, if noteId.Some? then GetNote(noteId.value) else NoCommand, [])
    case UpdateNoteTitle(title) => Step(UpdateNoteTitle(s, title), NoCommand, [])
    case UpdateNoteDescription(desc) => Step(UpdateNoteDesc(s, desc), NoCommand, [])
    case AddOrSaveNote => if noteId.Some? then SaveNote(s, firstReading) else AddNote(s, firstReading, secondReading)
    case DeleteNote(_) => DeleteNoteOnScreen(s)
    case LockNote(password) => Step(LockNote(s, password), NoCommand, [])
    case UnLockNote => Step(UnlockNote(s), NoCommand, [])
    case _ => Step(s, NoCommand, [])
  }

  /** Locking and then unlocking leaves an unencrypted note with no password and every other field as it was. */
  lemma LockThenUnlock(s: NoteDetailViewState, password: string)
    ensures var r := UnlockNote(LockNote(s, password));
      && !r.note.encrypt && r.note.password.None?
      && r.note.(encrypt := s.note.encrypt, password := s.note.password) == s.note
      && r.showSaveIcon
  {
  }
}

=== FILE: notes.dfy ===
/**
 The values the two screens' view models share: the note record, the user
 intents, the one-shot events they emit and the string resources those
 events carry.
 */
module Notes {
  import opened Nullable
  import opened TextEditor

  /** A clock reading; where the Kotlin app reads the clock, the model takes one as a parameter. */
  datatype Timestamp = Timestamp(instant: int)

  /** A stored note; its description is the editor's annotated string. */
  datatype Note = Note(
    id: int,
    title: string,
    description: AnnotatedString,
    encrypt: bool,
    password: Option<string>,
    createdAt: Timestamp,
    modifiedAt: Timestamp)

  /** The string resources events and states refer to. */
  datatype StringRes = AddNoteSuccess | UpdateNoteSuccess | DeleteNoteSuccess | ErrorPassword

  /** One-shot events sent to the screens. */
  datatype AppEvent =
    | ShowSnackbar(message: StringRes)
    | NavigateToDetail(noteId: int)
    | ExitScreen
    | ShowDiscardDialog

  /** Everything the screens ask the view models to do. */
  datatype NoteIntent =
    | LoadNotes
    | LoadNote
    | AddOrSaveNote
    | UpdateNoteTitle(title: string)
    | UpdateNoteDescription(description: AnnotatedString)
    | LockNote(password: string)
    | UnLockNote
    | DeleteNote(note: Note)
    | OpenNoteClicked(note: Note)
    | ValidatePassword(password: string)
}

=== FILE: notes_list.dfy ===
/**
 The note list screen's view model: loading the notes, opening a note, and
 the password check that guards opening an encrypted note. An event the
 Kotlin view model sends to the event channel is returned as an output, and
 the repository work it starts is returned as a command.
 */
module NotesList {
  import opened Nullable
  import N = Notes

  datatype NotesViewState = NotesViewState(
    isLoading: bool,
    notes: seq<N.Note>,
    selectedNote: Option<N.Note>,
    showPasswordSheet: bool,
    passwordErrorResId: Option<N.StringRes>)

  /** The state the list screen opens with: not loading, no notes, nothing selected, no sheet and no error. */
  function InitialNotesState(): (s: NotesViewState)
    ensures !s.isLoading && s.notes == []
    ensures s.selectedNote.None? && !s.showPasswordSheet && s.passwordErrorResId.None?
  {
    NotesViewState(false, [], None, false, None)
  }

  /** The repository work an intent starts; it runs asynchronously and only its request is modelled. */
  datatype Command = NoCommand | CollectNotes | DeleteNote(note: N.Note)

  /** The new state, the repository work started and the event sent, if any. */
  datatype Step = Step(state: NotesViewState, command: Command, event: Option<N.AppEvent>)

  /** The synchronous half of loading: only the loading flag goes up. */
  function LoadNotesStarted(s: NotesViewState): (r: NotesViewState)
    ensures r.isLoading && r.(isLoading := s.isLoading) == s
  {
    s.(isLoading := true)
  }

  /** Each list the repository delivers replaces the notes and ends loading. */
  function NotesCollected(s: NotesViewState, notes: seq<N.Note>): (r: NotesViewState)
    ensures !r.isLoading && r.notes == notes
    ensures r.(isLoading := s.isLoading, notes := s.notes) == s
  {
    s.(isLoading := false, notes := notes)
  }

  /** An encrypted note asks for its password; any other note opens at once. */
  function OnNoteClicked(s: NotesViewState, note: N.Note): (r: Step)
    ensures note.encrypt ==> r.event.None? && r.state.selectedNote == Some(note) && r.state.showPasswordSheet
    ensures note.encrypt ==> r.state.(selectedNote := s.selectedNote, showPasswordSheet := s.showPasswordSheet) == s
    ensures r.command == NoCommand
    ensures !note.encrypt ==> r.state == s && r.event == Some(N.NavigateToDetail(note.id))
  {
    if note.encrypt then Step(s.(selectedNote := Some(note), showPasswordSheet := true), NoCommand, None)
    else Step(s, NoCommand, Some(N.NavigateToDetail(note.id)))
  }

  /**
   Checks a password against the selected note's. Without a selected note
   nothing happens; a wrong password shows the error; the right one closes
   the sheet and opens the note, leaving any earlier error in place.
   */
  function ValidatePassword(s: NotesViewState, password: string): (r: Step)
    ensures r.command == NoCommand
    ensures s.selectedNote.None? ==> r == Step(s, NoCommand, None)
    ensures s.selectedNote.Some? && s.selectedNote.value.password != Some(password) ==>
              r.event.None? && r.state == s.(passwordErrorResId := Some(N.ErrorPassword))
    ensures s.selectedNote.Some? && s.selectedNote.value.password == Some(password) ==>
              r.event == Some(N.NavigateToDetail(s.selectedNote.value.id))
              && r.state == s.(showPasswordSheet := false)
  {
    match s.selectedNote
    case None => Step(s, NoCommand, None)
    case Some(note) =>
      if Some(password) != note.password then Step(s.(passwordErrorResId := Some(N.ErrorPassword)), NoCommand, None)
      else Step(s.(showPasswordSheet := false), NoCommand, Some(N.NavigateToDetail(note.id)))
  }

  /** Once the repository has deleted a note, the delete-success snackbar is sent and nothing else changes. */
  function DeleteCompleted(s: NotesViewState): (r: Step)
    ensures r.state == s && r.command == NoCommand
    ensures r.event == Some(N.ShowSnackbar(N.DeleteNoteSuccess))
  {
    Step(s, NoCommand, Some(N.ShowSnackbar(N.DeleteNoteSuccess)))
  }

  /**
   Dispatches an intent to its handler. No intent changes the notes held;
   the only event sent while handling an intent is a navigation (the delete
   snackbar follows later, from DeleteCompleted); intents meant for the
   detail screen change nothing.
   */
  function HandleIntent(s: NotesViewState, intent: N.NoteIntent): (r: Step)
    ensures r.state.notes == s.notes
    ensures r.event.Some? ==> r.event.value.NavigateToDetail?
    ensures intent.LoadNotes? ==> r == Step(LoadNotesStarted(s), CollectNotes, None)
    ensures intent.DeleteNote? ==> r == Step(s, DeleteNote(intent.note), None)
    ensures intent.OpenNoteClicked? ==> r == OnNoteClicked(s, intent.note)
    ensures intent.ValidatePassword? ==> r == ValidatePassword(s, intent.password)
    ensures !(intent.LoadNotes? || intent.DeleteNote? || intent.OpenNoteClicked? || intent.ValidatePassword?) ==>
              r == Step(s, NoCommand, None)
  {
    match intent
    case LoadNotes => Step(LoadNotesStarted(s), CollectNotes, None)
    case DeleteNote(note) => Step(s, DeleteNote(note), None)
    case OpenNoteClicked(note) => OnNoteClicked(s, note)
    case ValidatePassword(password) => ValidatePassword(s, password)
    case _ => Step(s, NoCommand, None)
  }

  /**
   Opening an encrypted note from the list navigates to it exactly when the
   password entered matches the note's; otherwise the error is shown.
   */
  lemma EncryptedNoteOpensOnlyWithItsPassword(s: NotesViewState, note: N.Note, password: string)
    requires note.encrypt
    ensures var clicked := OnNoteClicked(s, note);
      && clicked.event.None?
      && (ValidatePassword(clicked.state, password).event == Some(N.NavigateToDetail(note.id))
          <==> note.password == Some(password))
      && (note.password != Some(password) ==>
            ValidatePassword(clicked.state, password).state.passwordErrorResId == Some(N.ErrorPassword))
  {
  }

  /**
   From the initial state, a load first shows the loading flag with no notes
   and no error, then holds exactly the fetched notes with loading ended.
   */
  lemma LoadNotesSequence(fetched: seq<N.Note>)
    ensures var loading := HandleIntent(InitialNotesState(), N.LoadNotes).state;
      && loading.isLoading && loading.notes == [] && loading.passwordErrorResId.None?
      && var done := NotesCollected(loading, fetched);
      && !done.isLoading && done.notes == fetched
  {
  }
}

=== FILE: nullable.dfy ===
/** Kotlin's nullable values. */
module Nullable {

  /** `None` plays the part of Kotlin's `null`. */
  datatype Option<+T> = None | Some(value: T)
}

=== FILE: text_editor.dfy ===
/**
 The span algebra of the rich-text editor and its per-keystroke pipeline.

 An annotated string is a text plus an ordered list of style ranges. On every
 change the editor re-derives formatting spans from the previous ranges,
 clamps them to the new text length, appends at most one span for the current
 selection, and materialises the spans back into style ranges.

 Offsets are Kotlin `Int`s (unbounded here) and a text's length is the length
 of its character sequence.
 */
module TextEditor {
  import opened Catalog
  import opened ActionSets

  /** A style applied over the half-open offsets [start, end). */
  datatype Range = Range(item: SpanStyle, start: int, end: int)

  /** A text with its style ranges, in the order they were added. */
  datatype AnnotatedString = AnnotatedString(text: string, spanStyles: seq<Range>)

  /** A range of text with the set of actions applied to it. */
  datatype FormattingSpan = FormattingSpan(start: int, end: int, formats: ActionSet)

  /** What one change of the text field produces: the new annotated string and the spans it was built from. */
  datatype EditOutcome = EditOutcome(annotated: AnnotatedString, spans: seq<FormattingSpan>)

  /** Every range is non-empty and lies inside a text of length n. */
  predicate RangesWithin(ranges: seq<Range>, n: int) {
    forall k :: 0 <= k < |ranges| ==> 0 <= ranges[k].start < ranges[k].end <= n
  }

  /** Every span is non-empty and lies inside a text of length n. */
  predicate SpansWithin(spans: seq<FormattingSpan>, n: int) {
    forall i :: 0 <= i < |spans| ==> 0 <= spans[i].start < spans[i].end <= n
  }

  /** Every range is non-empty and ends inside a text of length n; its start may lie before the text. */
  predicate RangesFit(ranges: seq<Range>, n: int) {
    forall k :: 0 <= k < |ranges| ==> ranges[k].start < ranges[k].end <= n
  }

  /** Every span is non-empty and ends inside a text of length n; its start may lie before the text. */
  predicate SpansFit(spans: seq<FormattingSpan>, n: int) {
    forall i :: 0 <= i < |spans| ==> spans[i].start < spans[i].end <= n
  }

  /** No range starts before the beginning of the text. */
  predicate StartsNonNegative(ranges: seq<Range>) {
    forall k :: 0 <= k < |ranges| ==> 0 <= ranges[k].start
  }

  // ---------------------------------------------------------------------------
  // Recovering actions from styles
  // ---------------------------------------------------------------------------

  /** `formats.add(a)` when the condition holds. */
  function AddIf(formats: ActionSet, condition: bool, a: Action): ActionSet {
    if condition then Plus(formats, a) else formats
  }

  /**
   The actions a style stands for: the one action whose style it is, or none.
   The Kotlin editor compares the style for equality with each cataloged style in
   turn and adds every match; since the catalog is injective at most one
   comparison succeeds, which is a single lookup (see ExtractBySevenChecks).
   */
  function ExtractFormatFromSpanStyle(item: SpanStyle): (r: ActionSet)
    ensures |r| <= 1
    ensures forall a :: r == [a] <==> item == StyleFor(a)
    ensures r == [] <==> !IsCataloged(item)
  {
    var r: ActionSet := match ActionFor(item) case Some(a) => [a] case None => [];
    assert forall a :: r == [a] <==> item == StyleFor(a) by {
      forall a ensures r == [a] <==> item == StyleFor(a) {
        if ActionFor(item).Some? {
          StyleForInjective(a, ActionFor(item).value);
        }
      }
    }
    r
  }

  /** The Kotlin editor's seven independent equality checks, each adding its action, give the same set. */
  lemma ExtractBySevenChecks(item: SpanStyle)
    ensures ExtractFormatFromSpanStyle(item)
         == AddIf(AddIf(AddIf(AddIf(AddIf(AddIf(AddIf([],
              item == HighlightStyle, Highlight),
              item == HeadingStyle, Heading),
              item == SubtitleStyle, SubHeading),
              item == StrikeThroughStyle, Strikethrough),
              item == UnderlineStyle, Underline),
              item == ItalicsStyle, Italics),
              item == BoldStyle, Bold)
  {
  }

  // ---------------------------------------------------------------------------
  // Clamping to a new text length
  // ---------------------------------------------------------------------------

  /** Kotlin's `coerceAtMost`: the smaller of the two. */
  function CoerceAtMost(x: int, max: int): (r: int)
    ensures r <= x && r <= max
    ensures r == x || r == max
  {
    if x > max then max else x
  }

  /** A range still covers something once both ends are clamped to n. */
  predicate Survives(r: Range, n: int) {
    CoerceAtMost(r.start, n) < CoerceAtMost(r.end, n)
  }

  /** The span a range becomes once clamped to n. */
  function Clamp(r: Range, n: int): FormattingSpan {
    FormattingSpan(CoerceAtMost(r.start, n), CoerceAtMost(r.end, n), ExtractFormatFromSpanStyle(r.item))
  }

  /**
   Clamps every range to a text of length n and drops those that become
   empty; what survives carries at most one action and fits the new text.
   */
  function AdjustRanges(ranges: seq<Range>, n: nat): (r: seq<FormattingSpan>)
    ensures |r| <= |ranges|
    ensures forall i :: 0 <= i < |r| ==> r[i].start < r[i].end <= n && |r[i].formats| <= 1
    ensures StartsNonNegative(ranges) ==> SpansWithin(r, n)
    decreases |ranges|
  {
    if ranges == [] then []
    else
      var rest := AdjustRanges(ranges[1..], n);
      if Survives(ranges[0], n) then
        var head := Clamp(ranges[0], n);
        assert head.start < head.end <= n && |head.formats| <= 1;
        assert 0 <= ranges[0].start ==> 0 <= head.start;
        [head] + rest
      else rest
  }

  /** The spans of the previous annotated string, clamped to the length of the new text. */
  function AdjustSpanForNewText(existing: AnnotatedString, newText: string): (r: seq<FormattingSpan>)
    ensures |r| <= |existing.spanStyles|
    ensures forall i :: 0 <= i < |r| ==> r[i].start < r[i].end <= |newText| && |r[i].formats| <= 1
    ensures StartsNonNegative(existing.spanStyles) ==> SpansWithin(r, |newText|)
  {
    AdjustRanges(existing.spanStyles, |newText|)
  }

  /** The indices from i on of the ranges that survive clamping to n, in increasing order. */
  function SurvivorsFrom(ranges: seq<Range>, n: int, i: nat): (idx: seq<nat>)
    requires i <= |ranges|
    ensures forall k :: 0 <= k < |idx| ==> i <= idx[k] < |ranges| && Survives(ranges[idx[k]], n)
    ensures forall k, l :: 0 <= k < l < |idx| ==> idx[k] < idx[l]
    ensures forall j :: i <= j < |ranges| && Survives(ranges[j], n) ==> j in idx
    decreases |ranges| - i
  {
    if i == |ranges| then []
    else (if Survives(ranges[i], n) then [i] else []) + SurvivorsFrom(ranges, n, i + 1)
  }

  lemma {:induction false} AdjustFrom(ranges: seq<Range>, n: nat, i: nat)
    requires i <= |ranges|
    ensures |AdjustRanges(ranges[i..], n)| == |SurvivorsFrom(ranges, n, i)|
    ensures forall k :: 0 <= k < |SurvivorsFrom(ranges, n, i)| ==>
              AdjustRanges(ranges[i..], n)[k] == Clamp(ranges[SurvivorsFrom(ranges, n, i)[k]], n)
    decreases |ranges| - i
  {
    if i < |ranges| {
      var tail := ranges[i..];
      assert tail[0] == ranges[i] && tail[1..] == ranges[i + 1..];
      AdjustFrom(ranges, n, i + 1);
      var rest := AdjustRanges(ranges[i + 1..], n);
      var restIdx := SurvivorsFrom(ranges, n, i + 1);
      if Survives(ranges[i], n) {
        assert AdjustRanges(tail, n) == [Clamp(ranges[i], n)] + rest;
        assert SurvivorsFrom(ranges, n, i) == [i] + restIdx;
      } else {
        assert AdjustRanges(tail, n) == rest;
        assert SurvivorsFrom(ranges, n, i) == restIdx;
      }
    }
  }

  /**
   Clamping keeps order and loses nothing else: the result is exactly the
   clamped images of the surviving ranges, in their original order.
   */
  lemma AdjustSelectsSurvivorsInOrder(ranges: seq<Range>, n: nat)
    ensures var idx := SurvivorsFrom(ranges, n, 0);
      && |AdjustRanges(ranges, n)| == |idx|
      && (forall k :: 0 <= k < |idx| ==> AdjustRanges(ranges, n)[k] == Clamp(ranges[idx[k]], n))
      && (forall k, l :: 0 <= k < l < |idx| ==> idx[k] < idx[l])
      && (forall j :: 0 <= j < |ranges| ==> (j in idx <==> Survives(ranges[j], n)))
  {
    AdjustFrom(ranges, n, 0);
    assert ranges[0..] == ranges;
  }

  /** A range that already fits the new text keeps its bounds; one starting at or past its end is dropped. */
  lemma ClampFittingAndBeyond(r: Range, n: nat)
    ensures r.start < r.end <= n ==> Survives(r, n) && Clamp(r, n).start == r.start && Clamp(r, n).end == r.end
    ensures n <= r.start ==> !Survives(r, n)
  {
  }

  /** When every range fits the new text, clamping changes no bounds and drops nothing. */
  lemma {:induction false} AdjustKeepsFittingRanges(ranges: seq<Range>, n: nat)
    requires RangesFit(ranges, n)
    ensures |AdjustRanges(ranges, n)| == |ranges|
    ensures forall k :: 0 <= k < |ranges| ==>
              AdjustRanges(ranges, n)[k] == FormattingSpan(ranges[k].start, ranges[k].end, ExtractFormatFromSpanStyle(ranges[k].item))
    decreases |ranges|
  {
    if ranges != [] {
      AdjustKeepsFittingRanges(ranges[1..], n);
    }
  }

  /** Ranges that start at or past the new end all vanish. */
  lemma {:induction false} AdjustDropsRangesBeyond(ranges: seq<Range>, n: nat)
    requires forall k :: 0 <= k < |ranges| ==> n <= ranges[k].start
    ensures AdjustRanges(ranges, n) == []
    decreases |ranges|
  {
    if ranges != [] {
      AdjustDropsRangesBeyond(ranges[1..], n);
    }
  }

  /** Clamping distributes over concatenation. */
  lemma {:induction false} AdjustAppend(a: seq<Range>, b: seq<Range>, n: nat)
    ensures AdjustRanges(a + b, n) == AdjustRanges(a, n) + AdjustRanges(b, n)
    decreases |a|
  {
    if a != [] {
      assert (a + b)[1..] == a[1..] + b;
      AdjustAppend(a[1..], b, n);
    } else {
      assert a + b == b;
    }
  }

  // ---------------------------------------------------------------------------
  // The span for the current selection
  // ---------------------------------------------------------------------------

  /**
   Appends at most one span: the active formats over a non-empty selection,
   or, when no format is active and the selection starts after offset 0, an
   action-free marker over the character before the selection start.
   */
  function AddActiveFormattingSpan(currentSpans: seq<FormattingSpan>, selectionStart: int, selectionEnd: int,
                                   activeFormats: ActionSet): (r: seq<FormattingSpan>)
    ensures |currentSpans| <= |r| <= |currentSpans| + 1
    ensures r[..|currentSpans|] == currentSpans
    ensures selectionStart != selectionEnd && activeFormats != [] ==>
              r == currentSpans + [FormattingSpan(selectionStart, selectionEnd, activeFormats)]
    ensures activeFormats == [] && selectionStart > 0 ==>
              r == currentSpans + [FormattingSpan(selectionStart - 1, selectionStart, [])]
    ensures activeFormats == [] && selectionStart <= 0 ==> r == currentSpans
    ensures activeFormats != [] && selectionStart == selectionEnd ==> r == currentSpans
  {
    if selectionStart != selectionEnd && activeFormats != [] then
      currentSpans + [FormattingSpan(selectionStart, selectionEnd, activeFormats)]
    else if activeFormats == [] && selectionStart > 0 then
      currentSpans + [FormattingSpan(selectionStart - 1, selectionStart, [])]
    else
      currentSpans
  }

  /**
   The appended span is a valid span of the text when the selection is a
   forward selection inside it; the Kotlin editor does not check the order of the
   selection ends, so that order is a precondition here.
   */
  lemma AddActiveKeepsSpansWithin(currentSpans: seq<FormattingSpan>, selectionStart: int, selectionEnd: int,
                                  activeFormats: ActionSet, n: int)
    requires SpansWithin(currentSpans, n)
    requires 0 <= selectionStart <= selectionEnd <= n
    ensures SpansWithin(AddActiveFormattingSpan(currentSpans, selectionStart, selectionEnd, activeFormats), n)
  {
  }

  // ---------------------------------------------------------------------------
  // Materialisation
  // ---------------------------------------------------------------------------

  /** The ranges one span contributes: one per action, in the set's order. */
  function StyleRanges(formats: seq<Action>, start: int, end: int): (r: seq<Range>)
    ensures |r| == |formats|
    ensures forall j :: 0 <= j < |r| ==> r[j] == Range(StyleFor(formats[j]), start, end)
    decreases |formats|
  {
    if formats == [] then []
    else [Range(StyleFor(formats[0]), start, end)] + StyleRanges(formats[1..], start, end)
  }

  /** The number of (span, action) pairs. */
  function FormatCount(spans: seq<FormattingSpan>): nat
    decreases |spans|
  {
    if spans == [] then 0 else |spans[0].formats| + FormatCount(spans[1..])
  }

  /**
   Builds the annotated string: the text unchanged, and for each span in order
   and each of its actions in order, that action's style over the span's
   bounds. Spans without actions contribute nothing.
   */
  function ApplyFormattingSpans(text: string, formattingSpans: seq<FormattingSpan>): (r: AnnotatedString)
    ensures r.text == text
    ensures |r.spanStyles| == FormatCount(formattingSpans)
    ensures forall k :: 0 <= k < |r.spanStyles| ==> IsCataloged(r.spanStyles[k].item)
    ensures SpansWithin(formattingSpans, |text|) ==> RangesWithin(r.spanStyles, |text|)
    decreases |formattingSpans|
  {
    if formattingSpans == [] then AnnotatedString(text, [])
    else
      var span := formattingSpans[0];
      var head := StyleRanges(span.formats, span.start, span.end);
      var rest := ApplyFormattingSpans(text, formattingSpans[1..]);
      assert forall j :: 0 <= j < |head| ==> IsCataloged(head[j].item) by {
        forall j | 0 <= j < |head| ensures IsCataloged(head[j].item) {
          assert head[j].item == StyleFor(span.formats[j]);
        }
      }
      assert SpansWithin(formattingSpans, |text|) ==> RangesWithin(head, |text|);
      RangesAppend(head, rest.spanStyles, |text|);
      AnnotatedString(text, head + rest.spanStyles)
  }

  /** Concatenation keeps what holds of every range on both sides. */
  lemma RangesAppend(a: seq<Range>, b: seq<Range>, n: int)
    ensures RangesWithin(a, n) && RangesWithin(b, n) ==> RangesWithin(a + b, n)
    ensures (forall k :: 0 <= k < |a| ==> IsCataloged(a[k].item)) && (forall k :: 0 <= k < |b| ==> IsCataloged(b[k].item))
            ==> forall k :: 0 <= k < |a + b| ==> IsCataloged((a + b)[k].item)
  {
    forall k | |a| <= k < |a + b| ensures (a + b)[k] == b[k - |a|] {
    }
  }

  /** Materialisation distributes over concatenation of span lists. */
  lemma {:induction false} ApplyAppend(text: string, a: seq<FormattingSpan>, b: seq<FormattingSpan>)
    ensures ApplyFormattingSpans(text, a + b).spanStyles
         == ApplyFormattingSpans(text, a).spanStyles + ApplyFormattingSpans(text, b).spanStyles
    decreases |a|
  {
    if a != [] {
      assert (a + b)[1..] == a[1..] + b;
      ApplyAppend(text, a[1..], b);
    } else {
      assert a + b == b;
    }
  }

  /** Materialising one span alone gives exactly that span's style ranges. */
  lemma ApplySingle(text: string, span: FormattingSpan)
    ensures ApplyFormattingSpans(text, [span]).spanStyles == StyleRanges(span.formats, span.start, span.end)
  {
    assert [span][1..] == [];
  }

  /**
   What lies where: the range for the j-th action of the i-th span sits at
   offset FormatCount(spans[..i]) + j of the result and carries that action's
   style over that span's bounds. With the count above this fixes every range.
   */
  lemma ApplyPlacesEachAction(text: string, formattingSpans: seq<FormattingSpan>, i: nat, j: nat)
    requires i < |formattingSpans| && j < |formattingSpans[i].formats|
    ensures var r := ApplyFormattingSpans(text, formattingSpans).spanStyles;
      && FormatCount(formattingSpans[..i]) + j < |r|
      && r[FormatCount(formattingSpans[..i]) + j]
         == Range(StyleFor(formattingSpans[i].formats[j]), formattingSpans[i].start, formattingSpans[i].end)
  {
    var span := formattingSpans[i];
    var before, after := formattingSpans[..i], formattingSpans[i + 1..];
    assert formattingSpans == before + ([span] + after);
    ApplyAppend(text, before, [span] + after);
    ApplyAppend(text, [span], after);
    ApplySingle(text, span);
    var pre := ApplyFormattingSpans(text, before).spanStyles;
    var mid := StyleRanges(span.formats, span.start, span.end);
    var post := ApplyFormattingSpans(text, after).spanStyles;
    assert ApplyFormattingSpans(text, formattingSpans).spanStyles == pre + (mid + post);
    assert |pre| == FormatCount(before);
    assert (pre + (mid + post))[|pre| + j] == mid[j];
  }

  /** Spans whose action set is empty, such as caret markers, have no effect on the result. */
  lemma {:induction false} ApplyIgnoresMarkers(text: string, formattingSpans: seq<FormattingSpan>)
    requires forall i :: 0 <= i < |formattingSpans| ==> formattingSpans[i].formats == []
    ensures ApplyFormattingSpans(text, formattingSpans) == AnnotatedString(text, [])
    decreases |formattingSpans|
  {
    if formattingSpans != [] {
      ApplyIgnoresMarkers(text, formattingSpans[1..]);
    }
  }

  /** One single-action span per action, over the given bounds. */
  function SingletonsOf(formats: seq<Action>, start: int, end: int): (r: seq<FormattingSpan>)
    decreases |formats|
  {
    if formats == [] then []
    else [FormattingSpan(start, end, [formats[0]])] + SingletonsOf(formats[1..], start, end)
  }

  /** Every span split into one single-action span per action it carries; marker spans vanish. */
  function Singletons(spans: seq<FormattingSpan>): seq<FormattingSpan>
    decreases |spans|
  {
    if spans == [] then []
    else SingletonsOf(spans[0].formats, spans[0].start, spans[0].end) + Singletons(spans[1..])
  }

  lemma {:induction false} AdjustStyleRanges(formats: seq<Action>, start: int, end: int, n: nat)
    requires start < end <= n
    ensures AdjustRanges(StyleRanges(formats, start, end), n) == SingletonsOf(formats, start, end)
    decreases |formats|
  {
    if formats != [] {
      var head := Range(StyleFor(formats[0]), start, end);
      var tail := StyleRanges(formats[1..], start, end);
      assert StyleRanges(formats, start, end) == [head] + tail;
      AdjustAppend([head], tail, n);
      assert [head][1..] == [];
      assert ExtractFormatFromSpanStyle(head.item) == [formats[0]];
      AdjustStyleRanges(formats[1..], start, end, n);
    }
  }

  /**
   Re-deriving spans from a materialised string against the same text gives
   back, in order, one single-action span per (span, action) pair with the
   span's bounds: no range is lost, moved or reinterpreted.
   */
  lemma {:induction false} ApplyThenAdjust(text: string, formattingSpans: seq<FormattingSpan>)
    requires SpansFit(formattingSpans, |text|)
    ensures AdjustSpanForNewText(ApplyFormattingSpans(text, formattingSpans), text) == Singletons(formattingSpans)
    decreases |formattingSpans|
  {
    if formattingSpans != [] {
      var span := formattingSpans[0];
      var head := StyleRanges(span.formats, span.start, span.end);
      var rest := ApplyFormattingSpans(text, formattingSpans[1..]);
      AdjustAppend(head, rest.spanStyles, |text|);
      AdjustStyleRanges(span.formats, span.start, span.end, |text|);
      ApplyThenAdjust(text, formattingSpans[1..]);
    }
  }

  /** Ranges whose styles are all cataloged clamp to spans carrying exactly one action each. */
  lemma {:induction false} AdjustCatalogedRanges(ranges: seq<Range>, n: nat)
    requires forall k :: 0 <= k < |ranges| ==> IsCataloged(ranges[k].item)
    ensures forall i :: 0 <= i < |AdjustRanges(ranges, n)| ==> |AdjustRanges(ranges, n)[i].formats| == 1
    decreases |ranges|
  {
    if ranges != [] {
      AdjustCatalogedRanges(ranges[1..], n);
    }
  }

  /** Splitting spans that already carry one action each changes nothing. */
  lemma {:induction false} SingletonsOfSingleActionSpans(spans: seq<FormattingSpan>)
    requires forall i :: 0 <= i < |spans| ==> |spans[i].formats| == 1
    ensures Singletons(spans) == spans
    decreases |spans|
  {
    if spans != [] {
      var span := spans[0];
      var f := span.formats;
      assert f[1..] == [];
      assert SingletonsOf(f, span.start, span.end) == [FormattingSpan(span.start, span.end, [f[0]])];
      assert [f[0]] == f;
      assert SingletonsOf(f, span.start, span.end) == [span];
      SingletonsOfSingleActionSpans(spans[1..]);
      assert spans == [span] + spans[1..];
    }
  }

  /**
   Clamping is stable: when every style is cataloged, materialising the
   clamped spans over the new text and clamping again gives the same spans.
   */
  lemma ReadjustIsStable(existing: AnnotatedString, newText: string)
    requires forall k :: 0 <= k < |existing.spanStyles| ==> IsCataloged(existing.spanStyles[k].item)
    ensures var adjusted := AdjustSpanForNewText(existing, newText);
      AdjustSpanForNewText(ApplyFormattingSpans(newText, adjusted), newText) == adjusted
  {
    var adjusted := AdjustSpanForNewText(existing, newText);
    ApplyThenAdjust(newText, adjusted);
    AdjustCatalogedRanges(existing.spanStyles, |newText|);
    SingletonsOfSingleActionSpans(adjusted);
  }

  // ---------------------------------------------------------------------------
  // The per-keystroke pipeline
  // ---------------------------------------------------------------------------

  /**
   One change of the text field: clamp the previous ranges to the new text,
   append the span for the selection under the active formats, and
   materialise the result over the new text.
   */
  function OnValueChange(previous: AnnotatedString, newText: string, selectionStart: int, selectionEnd: int,
                         activeFormats: ActionSet): (r: EditOutcome)
    ensures r.annotated.text == newText
    ensures |AdjustSpanForNewText(previous, newText)| <= |r.spans| <= |previous.spanStyles| + 1
    ensures r.spans[..|AdjustSpanForNewText(previous, newText)|] == AdjustSpanForNewText(previous, newText)
    ensures StartsNonNegative(previous.spanStyles) && 0 <= selectionStart <= selectionEnd <= |newText| ==>
              SpansWithin(r.spans, |newText|) && RangesWithin(r.annotated.spanStyles, |newText|)
    ensures r.spans == AddActiveFormattingSpan(AdjustSpanForNewText(previous, newText), selectionStart, selectionEnd, activeFormats)
    ensures r.annotated == ApplyFormattingSpans(newText, r.spans)
  {
    var adjustedSpans := AdjustSpanForNewText(previous, newText);
    var updatedSpans := AddActiveFormattingSpan(adjustedSpans, selectionStart, selectionEnd, activeFormats);
    assert StartsNonNegative(previous.spanStyles) && 0 <= selectionStart <= selectionEnd <= |newText| ==>
             SpansWithin(updatedSpans, |newText|) by {
      if StartsNonNegative(previous.spanStyles) && 0 <= selectionStart <= selectionEnd <= |newText| {
        AddActiveKeepsSpansWithin(adjustedSpans, selectionStart, selectionEnd, activeFormats, |newText|);
      }
    }
    EditOutcome(ApplyFormattingSpans(newText, updatedSpans), updatedSpans)
  }

  /**
   What a keystroke adds on top of the clamped previous ranges: with a
   non-empty selection and active formats, one range per active action, in
   the set's order, over the selection, at the end of the string; with no
   active format, nothing at all.
   */
  lemma OnValueChangeFormatsSelection(previous: AnnotatedString, newText: string, selectionStart: int, selectionEnd: int,
                                      activeFormats: ActionSet)
    ensures var r := OnValueChange(previous, newText, selectionStart, selectionEnd, activeFormats);
      var before := ApplyFormattingSpans(newText, AdjustSpanForNewText(previous, newText)).spanStyles;
      && (selectionStart != selectionEnd ==>
            r.annotated.spanStyles == before + StyleRanges(activeFormats, selectionStart, selectionEnd))
      && (activeFormats == [] ==> r.annotated.spanStyles == before)
  {
    var adjusted := AdjustSpanForNewText(previous, newText);
    var r := OnValueChange(previous, newText, selectionStart, selectionEnd, activeFormats);
    if selectionStart != selectionEnd && activeFormats != [] {
      var span := FormattingSpan(selectionStart, selectionEnd, activeFormats);
      ApplyAppend(newText, adjusted, [span]);
      ApplySingle(newText, span);
    } else if activeFormats == [] && selectionStart > 0 {
      var marker := FormattingSpan(selectionStart - 1, selectionStart, []);
      ApplyAppend(newText, adjusted, [marker]);
      ApplySingle(newText, marker);
      assert StyleRanges([], selectionStart - 1, selectionStart) == [];
      assert r.annotated.spanStyles == ApplyFormattingSpans(newText, adjusted).spanStyles + [];
    }
  }

  /**
   In particular the j-th active action lands, with its style, over exactly
   the selection, among the last |activeFormats| ranges.
   */
  lemma OnValueChangeStylesSelection(previous: AnnotatedString, newText: string, selectionStart: int, selectionEnd: int,
                                     activeFormats: ActionSet, j: nat)
    requires selectionStart != selectionEnd && j < |activeFormats|
    ensures var ranges := OnValueChange(previous, newText, selectionStart, selectionEnd, activeFormats).annotated.spanStyles;
      && |activeFormats| <= |ranges|
      && ranges[|ranges| - |activeFormats| + j] == Range(StyleFor(activeFormats[j]), selectionStart, selectionEnd)
  {
    OnValueChangeFormatsSelection(previous, newText, selectionStart, selectionEnd, activeFormats);
  }

  /** Clamping ranges that all fit a text of length n gives the same spans against any longer text. */
  lemma AdjustFittingAtLongerLength(ranges: seq<Range>, n: nat, m: nat)
    requires n <= m
    requires RangesFit(ranges, n)
    ensures AdjustRanges(ranges, m) == AdjustRanges(ranges, n)
  {
    AdjustKeepsFittingRanges(ranges, n);
    AdjustKeepsFittingRanges(ranges, m);
  }

  /** Spans that are non-empty and end inside the text materialise to ranges that are too. */
  lemma {:induction false} ApplyKeepsSpanBounds(text: string, formattingSpans: seq<FormattingSpan>)
    requires SpansFit(formattingSpans, |text|)
    ensures RangesFit(ApplyFormattingSpans(text, formattingSpans).spanStyles, |text|)
    decreases |formattingSpans|
  {
    if formattingSpans != [] {
      var span := formattingSpans[0];
      assert span.start < span.end <= |text|;
      var head := StyleRanges(span.formats, span.start, span.end);
      var rest := ApplyFormattingSpans(text, formattingSpans[1..]).spanStyles;
      ApplyKeepsSpanBounds(text, formattingSpans[1..]);
      var ranges := head + rest;
      assert ApplyFormattingSpans(text, formattingSpans).spanStyles == ranges;
      forall k | 0 <= k < |ranges| ensures ranges[k].start < ranges[k].end <= |text| {
        if k < |head| {
          assert ranges[k] == head[k] == Range(StyleFor(span.formats[k]), span.start, span.end);
        } else {
          assert ranges[k] == rest[k - |head|];
          assert rest[k - |head|].start < rest[k - |head|].end <= |text|;
        }
      }
    }
  }

  /**
   What a change reports survives the next change: clamping its annotated
   string against any next text at least as long gives back its spans, split
   into one span per action and with action-free markers dropped. A shorter
   next text clamps them further.
   */
  lemma OnValueChangeRecoverable(previous: AnnotatedString, newText: string, selectionStart: int, selectionEnd: int,
                                 activeFormats: ActionSet, nextText: string)
    requires selectionStart <= selectionEnd <= |newText|
    requires |newText| <= |nextText|
    ensures var r := OnValueChange(previous, newText, selectionStart, selectionEnd, activeFormats);
      AdjustSpanForNewText(r.annotated, nextText) == Singletons(r.spans)
  {
    var r := OnValueChange(previous, newText, selectionStart, selectionEnd, activeFormats);
    ApplyThenAdjust(newText, r.spans);
    ApplyKeepsSpanBounds(newText, r.spans);
    AdjustFittingAtLongerLength(r.annotated.spanStyles, |newText|, |nextText|);
  }

  // ---------------------------------------------------------------------------
  // Worked examples
  // ---------------------------------------------------------------------------

  /**
   "Hello" bold throughout: cut to "Hel" the bold range shrinks to [0, 3);
   cut to "" it disappears.
   */
  lemma TruncationExamples()
    ensures AdjustSpanForNewText(AnnotatedString("Hello", [Range(BoldStyle, 0, 5)]), "Hel")
         == [FormattingSpan(0, 3, [Bold])]
    ensures AdjustSpanForNewText(AnnotatedString("Hello", [Range(BoldStyle, 0, 5)]), "") == []
  {
    assert ExtractFormatFromSpanStyle(BoldStyle) == [Bold];
  }

  /**
   Selecting [1, 4) of "Hello" with Bold and Italics active appends one span
   carrying both, which materialises as a bold and an italic range over
   [1, 4); a caret at 3 with nothing active appends the marker [2, 3), which
   materialises as nothing.
   */
  lemma SelectionExamples()
    ensures AddActiveFormattingSpan([], 1, 4, [Bold, Italics]) == [FormattingSpan(1, 4, [Bold, Italics])]
    ensures ApplyFormattingSpans("Hello", [FormattingSpan(1, 4, [Bold, Italics])])
         == AnnotatedString("Hello", [Range(BoldStyle, 1, 4), Range(ItalicsStyle, 1, 4)])
    ensures AddActiveFormattingSpan([], 3, 3, []) == [FormattingSpan(2, 3, [])]
    ensures ApplyFormattingSpans("Hello", [FormattingSpan(2, 3, [])]) == AnnotatedString("Hello", [])
  {
  }
}

=== FILE: toolbar.dfy ===
/**
 The formatting toolbar's toggle rule: pressing an action's button turns it
 off when it is active and on otherwise, and turning on a heading kind turns
 the other heading kind off, so at most one of them is ever active.
 */
module Toolbar {
  import opened Catalog
  import opened ActionSets

  predicate IsHeadingKind(a: Action) {
    a == Heading || a == SubHeading
  }

  /** Heading and SubHeading are not both active. */
  predicate HeadingsExclusive(active: seq<Action>) {
    !(Heading in active && SubHeading in active)
  }

  /** The active set after the button of `format` is pressed. */
  function ToggleFormat(activeFormats: ActionSet, format: Action): (r: ActionSet)
    ensures format in r <==> format !in activeFormats
    ensures format in activeFormats ==> forall b :: b != format ==> (b in r <==> b in activeFormats)
    ensures format !in activeFormats && IsHeadingKind(format) ==>
              forall b :: b in r <==> b == format || (b in activeFormats && !IsHeadingKind(b))
    ensures format !in activeFormats && !IsHeadingKind(format) ==>
              forall b :: b in r <==> b == format || b in activeFormats
    ensures HeadingsExclusive(activeFormats) ==> HeadingsExclusive(r)
    ensures format !in activeFormats && !IsHeadingKind(format) ==> r == activeFormats + [format]
    ensures format !in activeFormats ==> |r| > 0 && r[|r| - 1] == format
  {
    if format in activeFormats then
      Minus(activeFormats, format)
    else if IsHeadingKind(format) then
      Plus(Minus(Minus(activeFormats, Heading), SubHeading), format)
    else
      Plus(activeFormats, format)
  }

  /** Turning an action off takes it out where it stood and keeps the others in their order. */
  lemma ToggleOffKeepsOrder(activeFormats: ActionSet, format: Action)
    requires format in activeFormats
    ensures var k := IndexOf(activeFormats, format);
      ToggleFormat(activeFormats, format) == activeFormats[..k] + activeFormats[k + 1..]
  {
    MinusKeepsOrder(activeFormats, format);
  }

  /** The actions of `s` that are not heading kinds, in the order of `s`. */
  function NonHeadings(s: seq<Action>): seq<Action>
    decreases |s|
  {
    if s == [] then []
    else if IsHeadingKind(s[0]) then NonHeadings(s[1..])
    else [s[0]] + NonHeadings(s[1..])
  }

  /** Removing Heading and then SubHeading filters out the heading kinds and keeps the order of the rest. */
  lemma {:induction false} MinusHeadingsFilters(s: ActionSet)
    ensures Minus(Minus(s, Heading), SubHeading) == NonHeadings(s)
    decreases |s|
  {
    if s != [] {
      var rest: ActionSet := s[1..];
      MinusHeadingsFilters(rest);
      if s[0] == Heading {
        assert Heading !in rest by {
          assert forall k :: 0 <= k < |rest| ==> rest[k] == s[k + 1];
        }
        assert Minus(rest, Heading) == rest;
      } else {
        assert Minus(s, Heading) == [s[0]] + Minus(rest, Heading);
        var afterHeading := Minus(s, Heading);
        assert afterHeading[0] == s[0] && afterHeading[1..] == Minus(rest, Heading);
      }
    }
  }

  /**
   Turning a heading kind on drops both heading kinds and appends the pressed
   one, keeping every other action in its order.
   */
  lemma ToggleHeadingOnKeepsOrder(activeFormats: ActionSet, format: Action)
    requires format !in activeFormats && IsHeadingKind(format)
    ensures ToggleFormat(activeFormats, format) == Minus(Minus(activeFormats, Heading), SubHeading) + [format]
    ensures ToggleFormat(activeFormats, format) == NonHeadings(activeFormats) + [format]
  {
    MinusHeadingsFilters(activeFormats);
  }

  /**
   Pressing the same non-heading button twice gives back the same set of
   actions; when the action was off, even the order is restored.
   */
  lemma ToggleTwiceRestores(activeFormats: ActionSet, format: Action)
    requires !IsHeadingKind(format)
    ensures Members(ToggleFormat(ToggleFormat(activeFormats, format), format)) == Members(activeFormats)
    ensures format !in activeFormats ==> ToggleFormat(ToggleFormat(activeFormats, format), format) == activeFormats
  {
    var once := ToggleFormat(activeFormats, format);
    if format !in activeFormats {
      assert once == activeFormats + [format];
      MinusLast(activeFormats, format);
    }
  }

  /** Removing the element just appended gives back the set before it. */
  lemma {:induction false} MinusLast(s: ActionSet, a: Action)
    requires a !in s
    ensures Minus(s + [a], a) == s
    decreases |s|
  {
    if s != [] {
      assert (s + [a])[1..] == s[1..] + [a];
      MinusLast(s[1..], a);
    }
  }

  /** The active set after pressing each button of `presses` in order. */
  function ToggleAll(activeFormats: ActionSet, presses: seq<Action>): ActionSet
    decreases |presses|
  {
    if presses == [] then activeFormats
    else ToggleAll(ToggleFormat(activeFormats, presses[0]), presses[1..])
  }

  /** Starting from no active format, no sequence of presses makes both heading kinds active. */
  lemma {:induction false} HeadingsNeverBothActive(presses: seq<Action>)
    ensures HeadingsExclusive(ToggleAll([], presses))
  {
    HeadingsStayExclusive([], presses);
  }

  lemma {:induction false} HeadingsStayExclusive(activeFormats: ActionSet, presses: seq<Action>)
    requires HeadingsExclusive(activeFormats)
    ensures HeadingsExclusive(ToggleAll(activeFormats, presses))
    decreases |presses|
  {
    if presses != [] {
      HeadingsStayExclusive(ToggleFormat(activeFormats, presses[0]), presses[1..]);
    }
  }
}
